=== FILE: README.md ===
# Demand forecast and thaw schedule, modelled in Dafny

This project models the computational core of two Supabase edge functions. Together they plan the thawing of a frozen product from its daily sales (in kg).

- `gerar-previsao` validates the request and loads the product's sales. It then:
  - splits off the last week as a test window;
  - runs `SimpleTimeSeriesModel` on the rest;
  - scores the model on the test week (MAPE and RMSE);
  - stores one forecast row per horizon day;
  - derives today's stock movements: withdraw, in thaw, and available. Each is inflated by a 15% weight loss during thawing.
- `SimpleTimeSeriesModel` is a seasonal-naive forecaster. For each step it takes two parts:
  - the mean of the observations within the last four weeks that sit at position `step % 7` of that window, counted from the window's start;
  - a smoothed week-over-week trend.

  It then applies a band of plus or minus 20%.
- `dashboard-dados` reads the latest control record, the upcoming forecast rows and the recent sales. It computes:
  - the headline metrics, with `|| 0` and `|| 0.15` defaults;
  - the weekly total, mean and efficiency;
  - the six-day timeline (`cronograma`);
  - the model metrics it shows.

Modules:

- `Results`: `Option` and `Result`.
- `Series`: the JavaScript array idioms as sequence functions. `Sum` is `reduce`, `TakeLast` is `slice(-k)`, `DropLast` is `slice(0, -k)`, and `At` is `xs[k] || 0`.
- `ForecastModel`: `SimpleTimeSeriesModel`, with `forecast`, `getSeasonalPattern` and `getTrend`.
- `Accuracy`: `calculateMetrics`.
- `Records`: the `previsoes` rows and the `controle_estoque` record, and the JavaScript truthiness test for the product id.
- `Pipeline`: the `gerar-previsao` handler without I/O. It exists both as written and as evidently intended; see Findings.
- `Dashboard`: the `dashboard-dados` handler without I/O.
- `ReadBack`: what the dashboard shows right after a forecast run.

Arithmetic uses exact `real`s. `Math.sqrt` is a parameter `sqrt` that must return the exact non-negative square root (`Accuracy.IsSqrt`). The database queries are parameters:

- the ordered sales series;
- the latest control record, `None` when there is none;
- the forecast rows from today on.

The request body's `idProduto` is a JSON value (`Records.JsonValue`), checked with JavaScript truthiness; the dashboard's `idProduto` query parameter is an `Option<string>`. The request's `diasPrevisao` is an `Option<int>` that defaults to 9. A negative horizon gives zero rows, because the `for` loop never runs.

In the code `upper` is `1.2 * p` and is never floored, while `mean` is `max(0, p)`. So `mean <= upper` holds exactly when the point forecast `p` is not negative (`ForecastModel.UpperBand`, `ForecastModel.Forecast`). A negative `p` needs a falling trend larger than the seasonal mean.

## Model

| member | source | states |
|---|---|---|
| ForecastModel.Strided | supabase/functions/gerar-previsao/index.ts:53-56 | the loop collects a value exactly when its start index lies inside the window; the first value is the one at the start index, and every value comes from the window at or after the start |
| ForecastModel.SeasonalPattern | supabase/functions/gerar-previsao/index.ts:48-61 | the result is the mean of the same-position values of the last `4*s` observations whenever the cycle position lies inside the data (so it is non-empty); otherwise it is the last-seven sum over 7; it is non-negative for non-negative data |
| ForecastModel.Trend | supabase/functions/gerar-previsao/index.ts:63-70 | 0 with fewer than 14 observations; otherwise 14 times the trend equals the last week's sum minus the previous week's sum |
| ForecastModel.LowerBand | supabase/functions/gerar-previsao/index.ts:38-41 | the lower bound is 80% of the floored forecast, so it lies between 0 and the floored forecast |
| ForecastModel.UpperBand | supabase/functions/gerar-previsao/index.ts:38-42 | the upper bound is 120% of the unfloored forecast and lies above the floored forecast exactly when the forecast is not negative |
| ForecastModel.Bands | supabase/functions/gerar-previsao/index.ts:37-42 | for each point forecast `p`: mean is `max(0, p)`, lower is 0.8 times that mean, upper is `1.2p`; `0 <= lower <= mean`; `mean <= upper` exactly when `p` is not negative |
| ForecastModel.PointForecast | supabase/functions/gerar-previsao/index.ts:34-37 | the point forecast of a step is the seasonal pattern of its cycle position plus the trend; it is non-negative for non-negative data too short for a trend |
| ForecastModel.Forecast | supabase/functions/gerar-previsao/index.ts:27-46 | three sequences of length `steps`; mean is the floored point forecast of each step; lower is 0.8 times mean; upper is 1.2 times the unfloored point forecast; `0 <= lower <= mean`; `mean <= upper` exactly when the point forecast is not negative |
| ForecastModel.ForecastExtends | supabase/functions/gerar-previsao/index.ts:32-45 | the forecast of `m` steps is the first `m` steps of any longer forecast |
| ForecastModel.ForecastShift | supabase/functions/gerar-previsao/index.ts:32-50 | day `i + s` of a forecast holds the floored point forecast of step `i`, with that step's band |
| ForecastModel.ForecastPeriodic | supabase/functions/gerar-previsao/index.ts:34-35 | the forecast repeats with the season: steps `i` and `i + s` have equal mean, lower and upper |
| ForecastModel.StridedPositions | supabase/functions/gerar-previsao/index.ts:53-56 | the k-th collected value is the one at index `start + k*s`, and collection stops at the first stride that leaves the window |
| ForecastModel.StridedAt | supabase/functions/gerar-previsao/index.ts:54-55 | the value pushed in the k-th iteration is the one at index `start + k*s`, which lies inside the window |
| ForecastModel.StridedLength | supabase/functions/gerar-previsao/index.ts:54 | the loop's last index lies inside the window and one more stride leaves it |
| ForecastModel.StridedPeriodic | supabase/functions/gerar-previsao/index.ts:53-56 | on a window that repeats with period `s`, every collected value equals the first |
| ForecastModel.SeasonalOfPeriodic | supabase/functions/gerar-previsao/index.ts:48-59 | on a periodic window, the seasonal pattern of a step is the window's value at that cycle position |
| ForecastModel.TrendOfRepeatedWeek | supabase/functions/gerar-previsao/index.ts:63-70 | two identical trailing weeks give a zero trend |
| ForecastModel.PeriodicSuffix | supabase/functions/gerar-previsao/index.ts:49 | taking the last `k` observations keeps a series periodic |
| ForecastModel.ConstantSeriesForecast | supabase/functions/gerar-previsao/index.ts:27-70 | a constant non-negative series `c` of at least one cycle forecasts mean `c`, lower `0.8c` and upper `1.2c` at every step |
| ForecastModel.WeeklyProfileForecast | supabase/functions/gerar-previsao/index.ts:27-70 | a series of at least one week that repeats week by week forecasts step `i` as the window's value at position `i % 7`, counted from the window's start, floored at 0 |
| ForecastModel.ConstantPointForecast | supabase/functions/gerar-previsao/index.ts:34-37 | the point forecast of a constant series of at least one cycle is the constant |
| ForecastModel.PeriodicIndex | supabase/functions/gerar-previsao/index.ts:50-55 | a series that repeats with period `s` holds at index `j` the value at `j % s` |
| ForecastModel.AlignedStart | supabase/functions/gerar-previsao/index.ts:50 | the aligned start lies in `[0, s)` and sits on the same day of the cycle as the forecast day `n + step` |
| ForecastModel.AlignedSeasonalPattern | supabase/functions/gerar-previsao/index.ts:48-61 | the mean of the values collected from the aligned start, with the same seven-day fallback as the code; the fallback is never taken once the data hold a full cycle, and non-negative data give a non-negative pattern |
| ForecastModel.AlignedForecast | supabase/functions/gerar-previsao/index.ts:27-46 | the bands of `forecast` around the aligned seasonal pattern plus the trend |
| ForecastModel.AlignedPatternOfPeriodic | supabase/functions/gerar-previsao/index.ts:48-59 | on a periodic series of at least one cycle, the aligned pattern of a step is the series' value on that step's day of the cycle |
| ForecastModel.AlignedWeeklyProfileForecast | supabase/functions/gerar-previsao/index.ts:48-61 | a series of at least one week that repeats week by week forecasts step `i` as the floored value of the same weekday, `data[(n + i) % 7]` |
| ForecastModel.AlignedAgreesOnWholeCycles | supabase/functions/gerar-previsao/index.ts:49-56 | when the window holds whole cycles the aligned start is `step % s` and the aligned pattern equals the pattern as written |
| ForecastModel.LongSeriesAligned | supabase/functions/gerar-previsao/index.ts:49-56 | with at least four cycles of data the aligned pattern equals the pattern as written |
| ForecastModel.ShortSeriesMisalignsWeekdays | supabase/functions/gerar-previsao/index.ts:48-56 | the 15-day series `1..7, 1..7, 1` repeats weekly and next sells 2 on the following weekday, yet `forecast` gives 1 for that day and the aligned forecast gives 2 |
| Accuracy.Abs | supabase/functions/gerar-previsao/index.ts:82 | `Math.abs(x)`: non-negative and equal to `x` or `-x` |
| Accuracy.ValidPoints | supabase/functions/gerar-previsao/index.ts:79-85 | the count of non-zero actuals never exceeds the number of actuals |
| Accuracy.RelativeErrorSum | supabase/functions/gerar-previsao/index.ts:78-85 | the sum of relative errors is non-negative |
| Accuracy.SquaredErrorSum | supabase/functions/gerar-previsao/index.ts:89 | the sum of squared errors is non-negative |
| Accuracy.CalculateMetrics | supabase/functions/gerar-previsao/index.ts:72-93 | `{0, 0}` for mismatched or empty inputs; both metrics non-negative; MAPE times the valid-point count is 100 times the relative error sum, or 0 without valid points; `rmse^2` times the length is the squared error sum |
| Accuracy.RelativeErrorIgnoresZeroActual | supabase/functions/gerar-previsao/index.ts:80-85 | changing the prediction at a zero actual leaves the relative error sum unchanged |
| Accuracy.MapeIgnoresZeroActuals | supabase/functions/gerar-previsao/index.ts:80-86 | changing the prediction at a zero actual leaves MAPE unchanged |
| Accuracy.SquaredErrorZeroIff | supabase/functions/gerar-previsao/index.ts:89 | the squared error sum is zero exactly when the prediction equals the actuals |
| Accuracy.RelativeErrorZeroIff | supabase/functions/gerar-previsao/index.ts:80-85 | the relative error sum is zero exactly when the prediction is exact at every non-zero actual |
| Accuracy.PerfectPredictionIff | supabase/functions/gerar-previsao/index.ts:72-93 | on equal-length non-empty inputs, RMSE is 0 exactly when the prediction is exact, and MAPE is 0 exactly when it is exact at every non-zero actual |
| Accuracy.RmseZeroIff | supabase/functions/gerar-previsao/index.ts:88-90 | on equal-length non-empty inputs, RMSE is 0 exactly when the prediction equals the actuals |
| Accuracy.MapeZeroIff | supabase/functions/gerar-previsao/index.ts:79-86 | on equal-length non-empty inputs, MAPE is 0 exactly when the prediction is exact at every non-zero actual |
| Accuracy.NoValidPoints | supabase/functions/gerar-previsao/index.ts:79-86 | no valid points means every actual is zero |
| Accuracy.IdenticalSeries | supabase/functions/gerar-previsao/index.ts:72-93 | scoring a series against itself gives `{0, 0}` |
| Series.Sum | supabase/functions/gerar-previsao/index.ts:59 | a sum of non-negative values is non-negative |
| Series.MinReal | supabase/functions/dashboard-dados/index.ts:73 | `Math.min(x, y)`: at most both arguments and equal to one of them |
| Series.Max0 | supabase/functions/gerar-previsao/index.ts:40-41 | `Math.max(0, x)` is at least 0 and at least `x`, and equals one of them |
| Series.At | supabase/functions/gerar-previsao/index.ts:155-157 | an in-range index reads its element; a non-zero result only comes from an in-range element, so an index past the end reads 0 |
| Series.TakeLast | supabase/functions/gerar-previsao/index.ts:132 | `slice(-k)` keeps the last `min(k, n)` elements, as a suffix |
| Series.DropLast | supabase/functions/gerar-previsao/index.ts:131-132 | `slice(0, -k)` followed by `slice(-k)` gives back the whole series |
| Series.SumConstant | supabase/functions/gerar-previsao/index.ts:59 | a sum of `n` copies of `c` is `n*c` |
| Series.MeanOfConstant | supabase/functions/gerar-previsao/index.ts:59 | the mean of copies of `c` is `c` |
| Pipeline.Iterations | supabase/functions/gerar-previsao/index.ts:148 | the loop runs `n` times, or not at all when `n` is not positive |
| Pipeline.BuildRows | supabase/functions/gerar-previsao/index.ts:148-161 | one row per horizon day; row `i` reads index `7 + i` of each forecast sequence, or 0 past its end; every row carries the run's metrics |
| Pipeline.DemandAt | supabase/functions/gerar-previsao/index.ts:180-181 | the demand of row `k` when that row exists, and 0 otherwise |
| Pipeline.StockControl | supabase/functions/gerar-previsao/index.ts:177-185 | withdraw, in-thaw and available times `0.85` give back the demand of row 1, the demand of row 0 and the last sale (each 0 when missing); the stored loss is 0.15 |
| Pipeline.Assemble | supabase/functions/gerar-previsao/index.ts:128-185 | exactly `h` rows sharing the run's metrics; row `i` holds mean, lower and upper of day `7 + i` of the training data's forecast, or 0 past its end; the metrics score the last 7 sales against the first `min(7, steps)` forecast days; the control record is derived from those rows and the sales |
| Pipeline.GenerateForecast | supabase/functions/gerar-previsao/index.ts:107-185 | fails with the missing-id error exactly when the JSON id is falsy (absent, `null`, `false`, `0` or `""`), and with the insufficient-data error exactly when the id is truthy and there are fewer than 14 sales. On success: the rows follow the forecast at `7 + i` where it reaches and are zero beyond it; the metrics are `{0, 0}` for horizons under a week and otherwise score the test week; the control record follows the rows |
| Pipeline.GenerateForecastIntended | supabase/functions/gerar-previsao/index.ts:137-161 | the same refusals; on success, row `i` is the forecast at `7 + i` of a `7 + h`-day forecast for every `i`, the metrics always score the test week against the first seven forecast days, and every row stores those metrics |
| Pipeline.IntendedReads | supabase/functions/gerar-previsao/index.ts:137-161 | assembling a `7 + h`-day forecast into `h` rows gives exactly the intended output |
| Pipeline.RowsRepeatForecast | supabase/functions/gerar-previsao/index.ts:138-161 | each existing row of the handler as written carries the forecast of step `i` (because of periodicity); rows with `7 + i >= h` are zero |
| Pipeline.AssembledRowsRepeat | supabase/functions/gerar-previsao/index.ts:138-161 | for an `h`-day forecast, row `i` holds the forecast of step `i` while `7 + i < h`, and zeros after |
| Pipeline.RowsOfPeriodicForecast | supabase/functions/gerar-previsao/index.ts:148-157 | over any weekly-repeating forecast of `h` days, row `i` holds day `i` while `7 + i < h`, and zeros after |
| Pipeline.DefaultHorizonRows | supabase/functions/gerar-previsao/index.ts:107-161 | with the default horizon of 9 only rows 0 and 1 carry a forecast; rows 2 to 8 are all zeros |
| Pipeline.StockFromForecast | supabase/functions/gerar-previsao/index.ts:177-185 | withdraw is `mean[1] / 0.85` when the horizon is at least 9, thaw is `mean[0] / 0.85` when it is at least 8, each 0 otherwise; available is the last sale over 0.85; withdraw and thaw are non-negative |
| Pipeline.AcceptedSeriesShape | supabase/functions/gerar-previsao/index.ts:124-135 | an accepted series splits into a training part of `n - 7` and the test week; the seasonal fallback is never taken; the trend is 0 below 21 sales |
| Pipeline.IntendedRowsFollowForecast | supabase/functions/gerar-previsao/index.ts:137-161 | in the intended handler, row `i` is the floored point forecast of step `i`, and its upper bound is 1.2 times that forecast |
| Pipeline.ShiftedRowsFollow | supabase/functions/gerar-previsao/index.ts:155-157 | rows that read days `s .. s + h` of an `s + h`-day forecast hold the point forecasts of steps `0 .. h` |
| Pipeline.IntendedRowsFollow | supabase/functions/gerar-previsao/index.ts:137-161 | rows that read day `7 + i` of a `7 + h`-day forecast hold the floored point forecast of their own step `i`, with upper bound 1.2 times it |
| Pipeline.SameRefusals | supabase/functions/gerar-previsao/index.ts:109-126 | the as-written and the intended handler refuse exactly the same requests, with the same error |
| Pipeline.AsWrittenVersusIntended | supabase/functions/gerar-previsao/index.ts:138-161 | on success the handler as written matches the intended one on its first `h - 7` rows, has zero demand in the rest, and has the same metrics once `h >= 7` |
| Pipeline.AssembleAgrees | supabase/functions/gerar-previsao/index.ts:138-161 | forecasts of `h` and `7 + h` steps give the same rows where the shorter one reaches and the same metrics once it covers the test week |
| Pipeline.ConstantSalesShowZeroedRows | supabase/functions/gerar-previsao/index.ts:138-155 | 14 equal positive sales `c` with the default horizon: as written, row 2's demand is 0; intended, it is `c` |
| Dashboard.EffectiveWeightLoss | supabase/functions/dashboard-dados/index.ts:85 | the stored loss when there is a record and it is non-zero, otherwise 0.15; never 0 |
| Dashboard.Headline | supabase/functions/dashboard-dados/index.ts:81-86 | the record's three quantities, all 0 without a record; the weight loss is the effective one |
| Dashboard.Efficiency | supabase/functions/dashboard-dados/index.ts:71-73 | `1000/11` (about 90.9) for a positive mean, otherwise 0; always within `[0, 100]` |
| Dashboard.WeeklyStatistics | supabase/functions/dashboard-dados/index.ts:66-73 | the total is the sum of the last `min(7, n)` sales; the mean times that count is the total; all zeros without sales; the efficiency is in `[0, 100]` |
| Records.IsFalsy | supabase/functions/gerar-previsao/index.ts:107-111 | `!idProduto` on the body's JSON value: true exactly for `undefined`, `null`, `false`, `0` and `""`; any other value (a non-empty string, a non-zero number, `true`, an array or object) is accepted |
| Records.IsMissingId | supabase/functions/dashboard-dados/index.ts:21-25 | `!idProduto` on a query parameter, which is a string or `null`: missing exactly when it is absent or the empty string |
| Dashboard.TodayAmount | supabase/functions/dashboard-dados/index.ts:98 | the amount of days 1, 3 and 5 is the headline's withdraw-today quantity: the stored value, or 0 without a record |
| Dashboard.NextAmount | supabase/functions/dashboard-dados/index.ts:104 | the amount of days 2, 4 and 6 times `1 - loss` is the second row's demand, or 0 without a second row |
| Dashboard.BuildSchedule | supabase/functions/dashboard-dados/index.ts:94-131 | six entries, days 1..6; two each of withdrawal, thawing and availability, labelled "Retirada", "Retirada", "Descongelamento", "Descongelamento", "Disponível", "Disponível" in order; day 1 current, the rest pending; odd days show today's withdrawal (0 without a record); even days times `1 - loss` give the second row's demand, or 0 without one |
| Dashboard.ShownModelMetrics | supabase/functions/dashboard-dados/index.ts:132-135 | a metric is shown exactly when a first row exists and its value is non-zero, and it is then that value |
| Dashboard.BuildDashboard | supabase/functions/dashboard-dados/index.ts:20-136 | fails exactly when the id is absent or empty; otherwise it combines the headline, weekly statistics, schedule and model metrics |
| Dashboard.WeeklyStatisticsOfSales | supabase/functions/dashboard-dados/index.ts:66-73 | non-negative sales give a non-negative total and mean; with a full week the mean is the week's sum over 7; a positive total gives efficiency `1000/11` |
| Dashboard.ScheduleAmountsNonNegative | supabase/functions/dashboard-dados/index.ts:94-131 | with a loss below 1 and non-negative stored withdrawal and demand, every timeline amount is non-negative |
| ReadBack.ShownRows | supabase/functions/dashboard-dados/index.ts:43-49 | the dashboard's query returns the first `min(10, n)` stored rows, in order |
| ReadBack.DashboardAfterForecast | supabase/functions/dashboard-dados/index.ts:81-135 | after a forecast run, the dashboard shows the stored quantities with a 0.15 loss; all six timeline amounts equal the stored withdrawal; MAPE is shown exactly when the first row's MAPE is non-zero |

## Left out

- HTTP handling, CORS, JSON parsing and serialisation, logging and the `try`/`catch` error responses are not modelled. The errors become `Result.Failure`.
- The Supabase queries and writes are not modelled: the `delete` and `insert` of forecast rows, the `upsert` of the control record, and their error results. The rows read back are parameters of the dashboard.
- Dates are not modelled: `data_previsao`, `data_referencia`, the `gte` date filters and the 30-day window. The dashboard receives the sales and rows those filters select.
- String formatting is not modelled: `toFixed`, the `%` suffix and `'N/A'`. The model returns the numbers, and `None` for `'N/A'`.
- `parseInt(idProduto)`, the echoed `produto.vendas`, `previsoes` and `controleEstoque` fields, and the `message` field are not modelled.
- IEEE-754 doubles are not modelled (rounding, `NaN`, `Infinity`). Arithmetic is exact, so `x || 0` on a real is `x`.
- Accuracy.CalculateMetrics: `Math.sqrt` is a caller-supplied exact square root, so RMSE is specified through `rmse * rmse`.
- Dashboard.BuildDashboard: requires a stored `perda_peso` other than 1. The code divides by zero there: days 2, 4 and 6 show `Infinity` (`-Infinity` for a negative demand), or 0 when the second row's demand is 0 or missing, because `|| 0` catches the `NaN`. The only writer stores 0.15.
- Dashboard.BuildSchedule: requires the same stored `perda_peso` other than 1, for the same reason.
- Dashboard.NextAmount: requires the same stored `perda_peso` other than 1, for the same reason.
- Pipeline.GenerateForecast: `diasPrevisao` is modelled as an integer. A fractional or non-numeric request value is not modelled.
- ForecastModel.Strided: its own contract states only when the result is empty, its first value and that every value comes from the window. The positions `start + k*s` are stated by `ForecastModel.StridedPositions`, so that the multiplication stays out of every other proof that uses `Strided`.
- ForecastModel.Forecast: a seasonality of 0 is excluded (`s > 0`), because the only caller uses the default of 7.
- Nullable database columns are not modelled: a sale with a null `total_venda_dia_kg` is not represented.
- The `upload-vendas` function and the UI components are outside this model.

## Findings

| source | as written | input that shows it | evidently intended | confidence | as-written member | corrected member |
|---|---|---|---|---|---|---|
| supabase/functions/gerar-previsao/index.ts:138 | `forecast(testeDays + diasPrevisao - testeDays)` forecasts only `diasPrevisao` days, but rows read index `testeDays + i` (lines 155-157) and the test score reads the first 7 (line 141) | 14 equal positive sales `c`, default horizon 9: rows 2 to 8 store demand 0 instead of `c`; with a horizon under 7 the metrics are `{0, 0}` | forecast `testeDays + diasPrevisao` days, as the comment on line 137 says | high, from the arithmetic; not executed | Pipeline.ConstantSalesShowZeroedRows | Pipeline.GenerateForecastIntended |
| supabase/functions/gerar-previsao/index.ts:49-56 | `getSeasonalPattern` starts at window index `step % 7`, counting from the first day of the last `4 * 7` observations, so it averages the forecast day's weekday only when the window holds whole weeks; in the handler the window is short of whole weeks for 15 to 34 sales that are not a multiple of 7 | a training series of 15 days `1..7, 1..7, 1` (22 sales in all): the next day sold 2 a week earlier, but step 0 is forecast as 1 | average the values on the forecast day's weekday, as the comment on line 52 says ("mean of the values on the same weekday") | medium, from the arithmetic; not executed | ForecastModel.ShortSeriesMisalignsWeekdays | ForecastModel.AlignedWeeklyProfileForecast |

`Pipeline.GenerateForecastIntended` corrects the horizon only and keeps `forecast` as written. The second correction can change forecasts only for 15 to 34 sales that are not a multiple of 7 (`ForecastModel.AlignedAgreesOnWholeCycles`, `ForecastModel.LongSeriesAligned`), and the code's own comment is the only evidence for it.

=== FILE: dashboard.dfy ===
/** The computational part of the `dashboard-dados` handler: the headline
    metrics read from the latest control record, the statistics of the last
    week of sales, and the six-day withdrawal / thaw / availability schedule.
    The three queries that feed it are parameters: the latest control record
    (absent when the product has none), the forecast rows from today on (at
    most ten, in date order) and the sales of the last thirty days. */
module Dashboard {
  import opened Results
  import opened Series
  import opened Records

  /** `perda_peso` shown and used when the control record has none, or 0. */
  const DefaultWeightLoss: real := 0.15

  /** `metaDiaria`: the daily target is 10% above the daily mean. */
  const TargetFactor: real := 1.1

  /** Number of days in the timeline. */
  const ScheduleDays: nat := 6

  datatype Stage = Withdrawal | Thawing | Available {

    /** The label the timeline shows. */
    function Label(): string {
      match this
      case Withdrawal => "Retirada"
      case Thawing => "Descongelamento"
      case Available => "Disponível"
    }
  }

  /** The stage labels of the six timeline days, in order. */
  const TimelineLabels: seq<string> :=
    ["Retirada", "Retirada", "Descongelamento", "Descongelamento", "Disponível", "Disponível"]

  /** The statuses the timeline component accepts; the handler only ever
      produces `Current` and `Pending`. */
  datatype Status = Completed | Current | Pending

  datatype ScheduleEntry = ScheduleEntry(day: nat, stage: Stage, amount: real, status: Status)

  /** `metricas`: the four headline numbers. */
  datatype HeadlineMetrics = HeadlineMetrics(withdrawToday: real, inThaw: real, availableToday: real, weightLoss: real)

  /** `estatisticas`, before `toFixed(1)`. */
  datatype WeeklyStats = WeeklyStats(total: real, dailyMean: real, efficiency: real)

  /** `metricas_modelo`, before formatting: `None` is shown as "N/A". */
  datatype ModelMetrics = ModelMetrics(mape: Option<real>, rmse: Option<real>)

  datatype DashboardData = DashboardData(metrics: HeadlineMetrics, stats: WeeklyStats,
                                         schedule: seq<ScheduleEntry>, model: ModelMetrics)

  datatype DashboardError = MissingProductId

  /** `controleEstoque?.perda_peso || 0.15`: a missing record and a stored 0
      both read as 0.15. */
  function EffectiveWeightLoss(control: Option<ControlState>): (p: real)
    ensures p != 0.0
    ensures control.Some? && control.value.weightLoss != 0.0 ==> p == control.value.weightLoss
    ensures control.None? || control.value.weightLoss == 0.0 ==> p == DefaultWeightLoss
  {
    match control
    case None => DefaultWeightLoss
    case Some(c) => if c.weightLoss != 0.0 then c.weightLoss else DefaultWeightLoss
  }

  /** The schedule divides by `1 - perda_peso`; a stored loss of exactly 1
      would divide by zero, which the handler does not guard against. */
  predicate DivisibleLoss(control: Option<ControlState>)
  {
    EffectiveWeightLoss(control) != 1.0
  }

  /** `metricas`: the control record's quantities, 0 each when there is no
      record, and the effective weight loss. */
  function Headline(control: Option<ControlState>): (m: HeadlineMetrics)
    ensures control.None? ==> m == HeadlineMetrics(0.0, 0.0, 0.0, DefaultWeightLoss)
    ensures control.Some? ==>
              && m.withdrawToday == control.value.withdrawToday
              && m.inThaw == control.value.inThaw
              && m.availableToday == control.value.availableToday
    ensures m.weightLoss == EffectiveWeightLoss(control) && m.weightLoss != 0.0
  {
    match control
    case None => HeadlineMetrics(0.0, 0.0, 0.0, EffectiveWeightLoss(control))
    case Some(c) => HeadlineMetrics(c.withdrawToday, c.inThaw, c.availableToday, EffectiveWeightLoss(control))
  }

  /** `eficiencia`: the daily mean as a percentage of a target 10% above it,
      capped at 100; 0 when the target is not positive. */
  function Efficiency(dailyMean: real): (e: real)
    ensures dailyMean > 0.0 ==> e == 1000.0 / 11.0
    ensures dailyMean <= 0.0 ==> e == 0.0
    ensures 0.0 <= e <= 100.0
  {
    var target := dailyMean * TargetFactor;
    if target > 0.0 then
      assert dailyMean / target == 1.0 / TargetFactor;
      MinReal(dailyMean / target * 100.0, 100.0)
    else 0.0
  }

  /** `totalSemana`, `mediaDiaria` and `eficiencia` over the last seven sales
      (or all of them when there are fewer). */
  function WeeklyStatistics(sales: seq<real>): (w: WeeklyStats)
    ensures w.total == Sum(sales[|sales| - Min(7, |sales|)..])
    ensures |sales| == 0 ==> w == WeeklyStats(0.0, 0.0, 0.0)
    ensures |sales| > 0 ==> w.dailyMean * Min(7, |sales|) as real == w.total
    ensures w.efficiency == Efficiency(w.dailyMean) && 0.0 <= w.efficiency <= 100.0
  {
    var lastWeek := TakeLast(sales, 7);
    assert lastWeek == sales[|sales| - Min(7, |sales|)..];
    var total := Sum(lastWeek);
    var dailyMean :=
      if |lastWeek| > 0 then
        QuotientTimes(total, |lastWeek| as real);
        total / |lastWeek| as real
      else 0.0;
    WeeklyStats(total, dailyMean, Efficiency(dailyMean))
  }

  /** The stage of a timeline day: two days each of withdrawal, thawing and
      availability. */
  function StageOfDay(day: nat): Stage
  {
    if day <= 2 then Withdrawal else if day <= 4 then Thawing else Available
  }

  /** Days 1, 3 and 5: `controleEstoque?.qtd_retirar_hoje || 0`. */
  function TodayAmount(control: Option<ControlState>): (r: real)
    ensures r == Headline(control).withdrawToday
  {
    match control
    case None => 0.0
    case Some(c) => c.withdrawToday
  }

  /** Days 2, 4 and 6: the second forecast row's demand inflated by the
      weight loss, or 0 when there is no second row. */
  function NextAmount(control: Option<ControlState>, forecasts: seq<ForecastRow>): (r: real)
    requires DivisibleLoss(control)
    ensures r * (1.0 - EffectiveWeightLoss(control)) == (if |forecasts| > 1 then forecasts[1].demand else 0.0)
  {
    if |forecasts| > 1 then forecasts[1].demand / (1.0 - EffectiveWeightLoss(control)) else 0.0
  }

  /** `cronograma`: six fixed entries. */
  function BuildSchedule(control: Option<ControlState>, forecasts: seq<ForecastRow>): (sched: seq<ScheduleEntry>)
    requires DivisibleLoss(control)
    ensures |sched| == ScheduleDays
    ensures forall k :: 0 <= k < |sched| ==> sched[k].day == k + 1 && sched[k].stage == StageOfDay(k + 1)
    ensures forall k :: 0 <= k < |sched| ==> sched[k].stage.Label() == TimelineLabels[k]
    ensures sched[0].status == Current
    ensures forall k :: 1 <= k < |sched| ==> sched[k].status == Pending
    ensures forall k :: 0 <= k < |sched| && k % 2 == 0 ==> sched[k].amount == TodayAmount(control)
    ensures forall k :: 0 <= k < |sched| && k % 2 == 1 ==>
              sched[k].amount * (1.0 - EffectiveWeightLoss(control))
                == (if |forecasts| > 1 then forecasts[1].demand else 0.0)
  {
    var today := TodayAmount(control);
    var next := NextAmount(control, forecasts);
    [ ScheduleEntry(1, Withdrawal, today, Current),
      ScheduleEntry(2, Withdrawal, next, Pending),
      ScheduleEntry(3, Thawing, today, Pending),
      ScheduleEntry(4, Thawing, next, Pending),
      ScheduleEntry(5, Available, today, Pending),
      ScheduleEntry(6, Available, next, Pending) ]
  }

  /** `previsoes?.[0]?.mape ? ... : 'N/A'`: a metric is shown only when
      there is a first forecast row and its value is not 0. */
  function ShownModelMetrics(forecasts: seq<ForecastRow>): (m: ModelMetrics)
    ensures m.mape.Some? <==> |forecasts| > 0 && forecasts[0].mape != 0.0
    ensures m.rmse.Some? <==> |forecasts| > 0 && forecasts[0].rmse != 0.0
    ensures m.mape.Some? ==> m.mape.value == forecasts[0].mape
    ensures m.rmse.Some? ==> m.rmse.value == forecasts[0].rmse
  {
    if |forecasts| == 0 then ModelMetrics(None, None)
    else
      var first := forecasts[0];
      ModelMetrics(if first.mape != 0.0 then Some(first.mape) else None,
                   if first.rmse != 0.0 then Some(first.rmse) else None)
  }

  /** The whole handler, minus I/O. */
  function BuildDashboard(productId: Option<string>, control: Option<ControlState>,
                          forecasts: seq<ForecastRow>, sales: seq<real>): (r: Result<DashboardData, DashboardError>)
    requires DivisibleLoss(control)
    ensures r.Failure? <==> IsMissingId(productId)
    ensures r.Success? ==>
              && r.value.metrics == Headline(control)
              && r.value.stats == WeeklyStatistics(sales)
              && r.value.schedule == BuildSchedule(control, forecasts)
              && r.value.model == ShownModelMetrics(forecasts)
  {
    if IsMissingId(productId) then Failure(MissingProductId)
    else
      Success(DashboardData(Headline(control), WeeklyStatistics(sales), BuildSchedule(control, forecasts),
                            ShownModelMetrics(forecasts)))
  }

  /** Non-negative sales give a non-negative weekly total and mean, and the
      mean of a full week is its total over seven. */
  lemma WeeklyStatisticsOfSales(sales: seq<real>)
    requires NonNegative(sales)
    ensures var w := WeeklyStatistics(sales);
            && w.total >= 0.0 && w.dailyMean >= 0.0
            && (|sales| >= 7 ==> w.dailyMean == Sum(sales[|sales| - 7..]) / 7.0)
            && (w.total > 0.0 ==> w.efficiency == 1000.0 / 11.0)
  {
    var w := WeeklyStatistics(sales);
    var lastWeek := TakeLast(sales, 7);
    TakeLastNonNegative(sales, 7);
    assert w.total == Sum(lastWeek);
    if |sales| > 0 {
      MeanFromTotal(w.total, w.dailyMean, Min(7, |sales|) as real);
      if |sales| >= 7 {
        assert lastWeek == sales[|sales| - 7..];
      }
    }
  }

  /** A mean that gives back a non-negative total over a positive count is
      non-negative, positive when the total is, and the total over the count. */
  lemma MeanFromTotal(total: real, mean: real, n: real)
    requires n > 0.0 && mean * n == total && total >= 0.0
    ensures mean >= 0.0
    ensures total > 0.0 ==> mean > 0.0
    ensures mean == total / n
  {
    SignOfFactor(mean, n);
    ScaledQuotient(total, mean, n);
  }

  /** A factor of a product with a positive `n` has the product's sign. */
  lemma SignOfFactor(x: real, n: real)
    requires n > 0.0
    ensures x * n >= 0.0 ==> x >= 0.0
    ensures x * n > 0.0 ==> x > 0.0
  {
  }

  /** With a usable weight loss and non-negative stored quantities and
      demand, every amount on the timeline is non-negative. */
  lemma ScheduleAmountsNonNegative(control: Option<ControlState>, forecasts: seq<ForecastRow>)
    requires DivisibleLoss(control) && EffectiveWeightLoss(control) < 1.0
    requires control.Some? ==> control.value.withdrawToday >= 0.0
    requires |forecasts| > 1 ==> forecasts[1].demand >= 0.0
    ensures forall k :: 0 <= k < ScheduleDays ==> BuildSchedule(control, forecasts)[k].amount >= 0.0
  {
    var p := EffectiveWeightLoss(control);
    if |forecasts| > 1 {
      QuotientNonNegative(forecasts[1].demand, 1.0 - p);
    }
    assert NextAmount(control, forecasts) >= 0.0;
  }
}

=== FILE: forecast_model.dfy ===
/** The seasonal-naive forecaster `SimpleTimeSeriesModel` of the
    `gerar-previsao` edge function: a per-position seasonal average over the
    last four cycles, plus a smoothed week-over-week trend, with a +-20% band. */
module ForecastModel {
  import opened Series

  /** Default cycle length: one week of daily sales. */
  const DefaultSeasonality: nat := 7

  /** Number of observations the trend needs (two full weeks). */
  const TrendWindow: nat := 14

  datatype ForecastResult = ForecastResult(mean: seq<real>, lower: seq<real>, upper: seq<real>)

  /** The values `w[start]`, `w[start + s]`, `w[start + 2s]`, ... that lie
      inside `w`, in order: what the loop of `getSeasonalPattern` collects. */
  function Strided(w: seq<real>, start: nat, s: nat): (r: seq<real>)
    requires s > 0
    ensures |r| > 0 <==> start < |w|
    ensures start < |w| ==> r[0] == w[start]
    ensures forall v :: v in r ==> v in w[start..]
    decreases |w| - start
  {
    if start >= |w| then []
    else [w[start]] + Strided(w, start + s, s)
  }

  /** `Strided` collects exactly the positions `start + k * s` that lie in
      `w`: its k-th value is `w[start + k * s]`, and one more stride would
      leave `w`. */
  lemma StridedPositions(w: seq<real>, start: nat, s: nat)
    requires s > 0
    ensures var r := Strided(w, start, s);
            && (forall k :: 0 <= k < |r| ==> start + k * s < |w| && r[k] == w[start + k * s])
            && (|r| > 0 ==> start + (|r| - 1) * s < |w| <= start + |r| * s)
  {
    forall k | 0 <= k < |Strided(w, start, s)|
      ensures start + k * s < |w| && Strided(w, start, s)[k] == w[start + k * s]
    {
      StridedAt(w, start, s, k);
    }
    StridedLength(w, start, s);
  }

  /** The k-th collected value is `w[start + k * s]`. */
  lemma {:induction false} StridedAt(w: seq<real>, start: nat, s: nat, k: nat)
    requires s > 0 && k < |Strided(w, start, s)|
    ensures start + k * s < |w| && Strided(w, start, s)[k] == w[start + k * s]
    decreases k
  {
    if k > 0 {
      var rest := Strided(w, start + s, s);
      assert Strided(w, start, s) == [w[start]] + rest;
      StridedAt(w, start + s, s, k - 1);
      StrideStep(start, s, k);
    }
  }

  /** The last collected position lies inside `w` and one more stride
      would leave it. */
  lemma {:induction false} StridedLength(w: seq<real>, start: nat, s: nat)
    requires s > 0
    ensures var n := |Strided(w, start, s)|;
            n > 0 ==> start + (n - 1) * s < |w| <= start + n * s
    decreases |w| - start
  {
    if start < |w| {
      var rest := Strided(w, start + s, s);
      StridedLength(w, start + s, s);
      assert |Strided(w, start, s)| == |rest| + 1;
      if |rest| > 0 {
        StrideStep(start, s, |rest|);
      }
      StrideStep(start, s, |rest| + 1);
    }
  }

  /** One stride followed by `k - 1` more is `k` strides. */
  lemma StrideStep(start: nat, s: nat, k: nat)
    requires k >= 1
    ensures start + s + (k - 1) * s == start + k * s
  {
  }

  /** The trailing window of `getSeasonalPattern`: the last `4 * s` observations. */
  function Window(data: seq<real>, s: nat): seq<real>
    requires s > 0
  {
    TakeLast(data, 4 * s)
  }

  /** The observations that fall on the same position of the cycle as `step`. */
  function SeasonalValues(data: seq<real>, s: nat, step: nat): seq<real>
    requires s > 0
  {
    Strided(Window(data, s), step % s, s)
  }

  /** `getSeasonalPattern(step)`: the mean of the seasonal values, or the sum
      of the last seven observations divided by seven when there are none.
      The fallback is taken exactly when the position of `step` in the cycle
      lies beyond the data, so never once the data hold a full cycle. */
  function SeasonalPattern(data: seq<real>, s: nat, step: nat): (r: real)
    requires s > 0
    ensures step % s < |data| ==>
              |SeasonalValues(data, s, step)| > 0 && r == Mean(SeasonalValues(data, s, step))
    ensures step % s >= |data| ==> r == Sum(TakeLast(data, 7)) / 7.0
    ensures NonNegative(data) ==> r >= 0.0
  {
    var values := SeasonalValues(data, s, step);
    SeasonalSumsNonNegative(data, s, step % s);
    if |values| > 0 then Mean(values)
    else Sum(TakeLast(data, 7)) / 7.0
  }

  /** `getTrend()`: half the difference between the mean of the last week and
      the mean of the week before it, or 0 without two full weeks. It takes no
      step, so every forecast step gets the same trend. */
  function Trend(data: seq<real>): (t: real)
    ensures |data| < TrendWindow ==> t == 0.0
    ensures |data| >= TrendWindow ==>
              t * 14.0 == Sum(data[|data| - 7..]) - Sum(data[|data| - 14..|data| - 7])
  {
    if |data| < TrendWindow then 0.0
    else
      var recent := Sum(data[|data| - 14..|data| - 7]) / 7.0;
      var current := Sum(TakeLast(data, 7)) / 7.0;
      (current - recent) * 0.5
  }

  /** The point forecast for `step` before flooring. */
  function PointForecast(data: seq<real>, s: nat, step: nat): (r: real)
    requires s > 0
    ensures r == SeasonalPattern(data, s, step % s) + Trend(data)
    ensures NonNegative(data) && |data| < TrendWindow ==> r >= 0.0
  {
    assert (step % s) % s == step % s;
    SeasonalPattern(data, s, step) + Trend(data)
  }

  /** The lower bound of the band around a point forecast `p`,
      `Math.max(0, p - 0.2p)`. */
  function LowerBand(p: real): (r: real)
    ensures 0.0 <= r <= Max0(p)
    ensures r == 0.8 * Max0(p)
  {
    Max0(p - p * 0.2)
  }

  /** The upper bound of the band around a point forecast `p`, `p + 0.2p`,
      which is not floored: it lies above the floored forecast only when `p`
      is not negative. */
  function UpperBand(p: real): (r: real)
    ensures r == 1.2 * p
    ensures Max0(p) <= r <==> p >= 0.0
  {
    p + p * 0.2
  }

  /** The loop body of `forecast` applied to a sequence of point forecasts:
      `mean` and `lower` are floored at zero, `upper` is not. */
  function Bands(points: seq<real>): (f: ForecastResult)
    ensures |f.mean| == |points| && |f.lower| == |points| && |f.upper| == |points|
    ensures forall i :: 0 <= i < |points| ==>
              && f.mean[i] == Max0(points[i])
              && f.lower[i] == 0.8 * f.mean[i]
              && f.upper[i] == 1.2 * points[i]
    ensures forall i :: 0 <= i < |points| ==> 0.0 <= f.lower[i] <= f.mean[i]
    ensures forall i :: 0 <= i < |points| ==> (f.mean[i] <= f.upper[i] <==> points[i] >= 0.0)
  {
    ForecastResult(seq(|points|, i requires 0 <= i < |points| => Max0(points[i])),
                   seq(|points|, i requires 0 <= i < |points| => LowerBand(points[i])),
                   seq(|points|, i requires 0 <= i < |points| => UpperBand(points[i])))
  }

  /** `forecast(steps)`: per step, the floored seasonal-plus-trend forecast,
      a lower bound of 80% of it and an unfloored upper bound of 120% of the
      point forecast. */
  function Forecast(data: seq<real>, s: nat, steps: nat): (f: ForecastResult)
    requires s > 0
    ensures |f.mean| == steps && |f.lower| == steps && |f.upper| == steps
    ensures forall i :: 0 <= i < steps ==> f.mean[i] == Max0(PointForecast(data, s, i))
    ensures forall i :: 0 <= i < steps ==> f.lower[i] == 0.8 * f.mean[i]
    ensures forall i :: 0 <= i < steps ==> f.upper[i] == 1.2 * PointForecast(data, s, i)
    ensures forall i :: 0 <= i < steps ==> 0.0 <= f.lower[i] <= f.mean[i]
    ensures forall i :: 0 <= i < steps ==>
              (f.mean[i] <= f.upper[i] <==> PointForecast(data, s, i) >= 0.0)
  {
    Bands(seq(steps, i requires 0 <= i < steps => PointForecast(data, s, i)))
  }

  /** A longer forecast extends a shorter one: step `i` does not depend on
      how many steps are asked for. */
  lemma ForecastExtends(data: seq<real>, s: nat, m: nat, n: nat)
    requires s > 0 && m <= n
    ensures var short := Forecast(data, s, m);
            var long := Forecast(data, s, n);
            && short.mean == long.mean[..m]
            && short.lower == long.lower[..m]
            && short.upper == long.upper[..m]
  {
    var short := Forecast(data, s, m);
    var long := Forecast(data, s, n);
    assert short.mean == long.mean[..m];
    assert short.lower == long.lower[..m];
    assert short.upper == long.upper[..m];
  }

  /** Both averages `getSeasonalPattern` can return, the mean of the values
      collected from `start` and the fallback, are non-negative when the
      observations are. */
  lemma SeasonalSumsNonNegative(data: seq<real>, s: nat, start: nat)
    requires s > 0
    ensures NonNegative(data) ==>
              (|Strided(Window(data, s), start, s)| > 0 ==> Mean(Strided(Window(data, s), start, s)) >= 0.0)
              && Sum(TakeLast(data, 7)) >= 0.0
  {
    if NonNegative(data) {
      var w := Window(data, s);
      var values := Strided(w, start, s);
      TakeLastNonNegative(data, 4 * s);
      TakeLastNonNegative(data, 7);
      StridedNonNegative(w, start, s);
      if |values| > 0 {
        QuotientNonNegative(Sum(values), |values| as real);
      }
    }
  }

  lemma {:induction false} StridedNonNegative(w: seq<real>, start: nat, s: nat)
    requires s > 0 && NonNegative(w)
    ensures NonNegative(Strided(w, start, s))
    decreases |w| - start
  {
    if start < |w| {
      StridedNonNegative(w, start + s, s);
    }
  }

  /** `w` repeats with period `s`. */
  ghost predicate Periodic(w: seq<real>, s: nat)
  {
    forall j :: 0 <= j && j + s < |w| ==> w[j] == w[j + s]
  }

  /** The forecast repeats with the cycle: the seasonal pattern only looks at
      `step % s` and the trend does not look at the step at all. */
  lemma ForecastPeriodic(data: seq<real>, s: nat, steps: nat)
    requires s > 0
    ensures var f := Forecast(data, s, steps);
            forall i :: 0 <= i && i + s < steps ==>
              f.mean[i] == f.mean[i + s] && f.lower[i] == f.lower[i + s] && f.upper[i] == f.upper[i + s]
  {
    var f := Forecast(data, s, steps);
    forall i | 0 <= i && i + s < steps
      ensures f.mean[i] == f.mean[i + s] && f.lower[i] == f.lower[i + s] && f.upper[i] == f.upper[i + s]
    {
      PointForecastPeriodic(data, s, i);
    }
  }

  /** Day `i + s` of a forecast is the floored point forecast of step `i`,
      with the band of step `i`. */
  lemma ForecastShift(data: seq<real>, s: nat, n: nat, i: nat)
    requires s > 0 && i + s < n
    ensures var f := Forecast(data, s, n);
            && f.mean[i + s] == Max0(PointForecast(data, s, i))
            && f.lower[i + s] == 0.8 * Max0(PointForecast(data, s, i))
            && f.upper[i + s] == 1.2 * PointForecast(data, s, i)
  {
    PointForecastPeriodic(data, s, i);
  }

  lemma PointForecastPeriodic(data: seq<real>, s: nat, i: nat)
    requires s > 0
    ensures PointForecast(data, s, i) == PointForecast(data, s, i + s)
  {
    ModAddPeriod(i, s);
  }

  lemma ModAddPeriod(i: nat, s: nat)
    requires s > 0
    ensures (i + s) % s == i % s
  {
    var q, r := i / s, i % s;
    var a, b := (i + s) / s, (i + s) % s;
    assert i == s * q + r && i + s == s * a + b;
    var k := a - q - 1;
    assert s * k == r - b;
  }

  /** On a periodic window every collected value equals the first one. */
  lemma {:induction false} StridedPeriodic(w: seq<real>, start: nat, s: nat)
    requires s > 0 && start < |w|
    requires Periodic(w, s)
    ensures Constant(Strided(w, start, s), w[start])
    decreases |w| - start
  {
    var r := Strided(w, start, s);
    if start + s < |w| {
      StridedPeriodic(w, start + s, s);
      assert r == [w[start]] + Strided(w, start + s, s);
    } else {
      assert r == [w[start]];
    }
  }

  /** On a window that repeats with the cycle, the seasonal pattern of a step
      is the window's value at that position of the cycle. */
  lemma SeasonalOfPeriodic(data: seq<real>, s: nat, step: nat)
    requires s > 0 && step % s < |data|
    requires Periodic(Window(data, s), s)
    ensures SeasonalPattern(data, s, step) == Window(data, s)[step % s]
  {
    var w := Window(data, s);
    StridedPeriodic(w, step % s, s);
    MeanOfConstant(SeasonalValues(data, s, step), w[step % s]);
  }

  /** Two identical weeks give no trend. */
  lemma TrendOfRepeatedWeek(data: seq<real>)
    requires |data| >= TrendWindow
    requires forall j :: |data| - 14 <= j < |data| - 7 ==> data[j] == data[j + 7]
    ensures Trend(data) == 0.0
  {
    assert data[|data| - 7..] == data[|data| - 14..|data| - 7];
  }

  /** Periodicity survives taking a suffix. */
  lemma PeriodicSuffix(data: seq<real>, s: nat, k: nat)
    requires s > 0 && k > 0
    requires Periodic(data, s)
    ensures Periodic(TakeLast(data, k), s)
  {
    var w := TakeLast(data, k);
    var off := |data| - |w|;
    forall j | 0 <= j && j + s < |w|
      ensures w[j] == w[j + s]
    {
      assert w[j] == data[off + j] && w[j + s] == data[off + j + s];
    }
  }

  /** A constant non-negative series of at least one full cycle forecasts
      itself: `mean = c`, `lower = 0.8c`, `upper = 1.2c`, and the fallback of
      `getSeasonalPattern` is never taken. */
  lemma ConstantSeriesForecast(data: seq<real>, c: real, s: nat, steps: nat)
    requires s > 0 && |data| >= s
    requires Constant(data, c) && c >= 0.0
    ensures var f := Forecast(data, s, steps);
            forall i :: 0 <= i < steps ==>
              f.mean[i] == c && f.lower[i] == 0.8 * c && f.upper[i] == 1.2 * c
  {
    var f := Forecast(data, s, steps);
    forall i | 0 <= i < steps
      ensures f.mean[i] == c && f.lower[i] == 0.8 * c && f.upper[i] == 1.2 * c
    {
      ConstantPointForecast(data, c, s, i);
    }
  }

  /** The point forecast of a constant series of at least one cycle is the
      constant. */
  lemma ConstantPointForecast(data: seq<real>, c: real, s: nat, step: nat)
    requires s > 0 && |data| >= s
    requires Constant(data, c)
    ensures PointForecast(data, s, step) == c
  {
    assert Periodic(data, s);
    PeriodicSuffix(data, s, 4 * s);
    if |data| >= TrendWindow {
      TrendOfRepeatedWeek(data);
    }
    SeasonalOfPeriodic(data, s, step);
  }

  /** A series that repeats week after week forecasts step `i` as the
      window's value at position `i % 7`, floored at zero. The positions are
      counted from the start of the window, so this is the value of the
      forecast day's weekday only when the window holds whole weeks (see
      `ShortSeriesMisalignsWeekdays`). */
  lemma WeeklyProfileForecast(data: seq<real>, steps: nat)
    requires |data| >= DefaultSeasonality
    requires Periodic(data, DefaultSeasonality)
    ensures var f := Forecast(data, DefaultSeasonality, steps);
            forall i :: 0 <= i < steps ==> f.mean[i] == Max0(Window(data, DefaultSeasonality)[i % 7])
  {
    var s := DefaultSeasonality;
    var f := Forecast(data, s, steps);
    PeriodicSuffix(data, s, 4 * s);
    if |data| >= TrendWindow {
      TrendOfRepeatedWeek(data);
    }
    forall i | 0 <= i < steps
      ensures f.mean[i] == Max0(Window(data, s)[i % 7])
    {
      SeasonalOfPeriodic(data, s, i);
    }
  }
  /** The window position on the same day of the cycle as forecast step
      `step`: window index `k` is day `|data| - |w| + k` of the series and
      the step is day `|data| + step`, so `k` must be congruent to
      `step + |w|`. */
  function AlignedStart(data: seq<real>, s: nat, step: nat): (k: nat)
    requires s > 0
    ensures k < s
    ensures (|data| - |Window(data, s)| + k) % s == (|data| + step) % s
  {
    var w := Window(data, s);
    ModOfSum(|data| - |w|, step + |w|, s);
    (step + |w|) % s
  }

  /** The seasonal pattern as its comment describes it ("the mean of the
      values on the same weekday"): the same loop and fallback as
      `SeasonalPattern`, started at the aligned position. As there, the
      fallback is never taken once the data hold a full cycle. */
  function AlignedSeasonalPattern(data: seq<real>, s: nat, step: nat): (r: real)
    requires s > 0
    ensures var values := Strided(Window(data, s), AlignedStart(data, s, step), s);
            |values| > 0 ==> r == Mean(values)
    ensures AlignedStart(data, s, step) >= |Window(data, s)| ==> r == Sum(TakeLast(data, 7)) / 7.0
    ensures |data| >= s ==> AlignedStart(data, s, step) < |Window(data, s)|
    ensures NonNegative(data) ==> r >= 0.0
  {
    var values := Strided(Window(data, s), AlignedStart(data, s, step), s);
    SeasonalSumsNonNegative(data, s, AlignedStart(data, s, step));
    if |values| > 0 then Mean(values)
    else Sum(TakeLast(data, 7)) / 7.0
  }

  /** When the window holds whole cycles its first index is on the same day
      of the cycle as the forecast's first day, and the aligned pattern is
      the pattern as written. */
  lemma AlignedAgreesOnWholeCycles(data: seq<real>, s: nat, step: nat)
    requires s > 0 && |Window(data, s)| % s == 0
    ensures AlignedStart(data, s, step) == step % s
    ensures AlignedSeasonalPattern(data, s, step) == SeasonalPattern(data, s, step)
  {
    var w := Window(data, s);
    var q := |w| / s;
    assert |w| == s * q;
    ModAddMultiple(step, q, s);
  }

  /** With at least four cycles of data the window is four whole cycles, so
      the seasonal pattern as written already averages the forecast day's
      own position in the cycle. */
  lemma LongSeriesAligned(data: seq<real>, s: nat, step: nat)
    requires s > 0 && |data| >= 4 * s
    ensures AlignedSeasonalPattern(data, s, step) == SeasonalPattern(data, s, step)
  {
    ModAddMultiple(0, 4, s);
    assert |Window(data, s)| == 4 * s;
    AlignedAgreesOnWholeCycles(data, s, step);
  }

  /** `forecast(steps)` with the aligned seasonal pattern. */
  function AlignedForecast(data: seq<real>, s: nat, steps: nat): (f: ForecastResult)
    requires s > 0
    ensures |f.mean| == steps && |f.lower| == steps && |f.upper| == steps
    ensures forall i :: 0 <= i < steps ==>
              && f.mean[i] == Max0(AlignedSeasonalPattern(data, s, i) + Trend(data))
              && f.lower[i] == 0.8 * f.mean[i]
              && f.upper[i] == 1.2 * (AlignedSeasonalPattern(data, s, i) + Trend(data))
  {
    Bands(seq(steps, i requires 0 <= i < steps => AlignedSeasonalPattern(data, s, i) + Trend(data)))
  }

  /** The aligned forecast continues a weekly profile: for a series of at
      least one week that repeats week after week, step `i` forecasts what
      the series sold on the same weekday, `data[(|data| + i) % 7]`. */
  lemma AlignedWeeklyProfileForecast(data: seq<real>, steps: nat)
    requires |data| >= DefaultSeasonality
    requires Periodic(data, DefaultSeasonality)
    ensures var f := AlignedForecast(data, DefaultSeasonality, steps);
            forall i :: 0 <= i < steps ==> f.mean[i] == Max0(data[(|data| + i) % 7])
  {
    var s := DefaultSeasonality;
    var f := AlignedForecast(data, s, steps);
    if |data| >= TrendWindow {
      TrendOfRepeatedWeek(data);
    }
    forall i | 0 <= i < steps
      ensures f.mean[i] == Max0(data[(|data| + i) % 7])
    {
      AlignedPatternOfPeriodic(data, s, i);
    }
  }

  /** On a series of at least one cycle that repeats with the cycle, the
      aligned seasonal pattern of a step is the value the series holds on
      that step's day of the cycle. */
  lemma AlignedPatternOfPeriodic(data: seq<real>, s: nat, step: nat)
    requires s > 0 && |data| >= s && Periodic(data, s)
    ensures AlignedSeasonalPattern(data, s, step) == data[(|data| + step) % s]
  {
    var w := Window(data, s);
    var off := |data| - |w|;
    var k := AlignedStart(data, s, step);
    PeriodicSuffix(data, s, 4 * s);
    StridedPeriodic(w, k, s);
    MeanOfConstant(Strided(w, k, s), w[k]);
    PeriodicIndex(data, s, off + k);
    assert w[k] == data[off + k];
  }

  /** A periodic series holds at every index the value of the first cycle. */
  lemma {:induction false} PeriodicIndex(data: seq<real>, s: nat, j: nat)
    requires s > 0 && j < |data| && Periodic(data, s)
    ensures data[j] == data[j % s]
    decreases j
  {
    if j >= s {
      PeriodicIndex(data, s, j - s);
      ModAddPeriod(j - s, s);
      assert data[j - s] == data[j];
    } else {
      ModSmall(j, s);
    }
  }

  lemma ModSmall(j: nat, s: nat)
    requires j < s
    ensures j % s == j
  {
  }

  lemma {:induction false} ModAddMultiple(x: nat, q: nat, s: nat)
    requires s > 0
    ensures (x + s * q) % s == x % s
    decreases q
  {
    if q > 0 {
      ModAddMultiple(x, q - 1, s);
      ModAddPeriod(x + s * (q - 1), s);
      assert x + s * q == x + s * (q - 1) + s;
    }
  }

  lemma ModOfSum(a: nat, b: nat, s: nat)
    requires s > 0
    ensures (a + b % s) % s == (a + b) % s
  {
    var q := b / s;
    assert b == s * q + b % s;
    ModAddMultiple(a + b % s, q, s);
  }

  /** Fifteen days of the weekly profile 1, 2, ..., 7 end on a day that sold
      1, so the next day is one that sold 2. The model as written counts
      seasonal positions from the start of its window and forecasts 1; the
      aligned forecast gives 2. */
  lemma ShortSeriesMisalignsWeekdays()
    ensures var week := [1.0, 2.0, 3.0, 4.0, 5.0, 6.0, 7.0];
            var data := week + week + [1.0];
            && Periodic(data, DefaultSeasonality)
            && data[|data| % 7] == 2.0
            && Forecast(data, DefaultSeasonality, 1).mean[0] == 1.0
            && AlignedForecast(data, DefaultSeasonality, 1).mean[0] == 2.0
  {
    var week := [1.0, 2.0, 3.0, 4.0, 5.0, 6.0, 7.0];
    var data := week + week + [1.0];
    assert Periodic(data, DefaultSeasonality) by {
      forall j | 0 <= j && j + 7 < |data|
        ensures data[j] == data[j + 7]
      {
        assert data[j] == week[j % 7] && data[j + 7] == week[j % 7];
      }
    }
    assert Window(data, DefaultSeasonality) == data;
    WeeklyProfileForecast(data, 1);
    AlignedWeeklyProfileForecast(data, 1);
  }
}

=== FILE: metrics.dfy ===
/** `calculateMetrics` of `SimpleTimeSeriesModel`: mean absolute percentage
    error over the non-zero actuals and root mean squared error over every
    point, with `{0, 0}` for mismatched or empty inputs. */
module Accuracy {

  datatype Metrics = Metrics(mape: real, rmse: real)

  /** `Math.sqrt` is a call this model cannot see; callers supply it, and it
      must return the exact non-negative square root. */
  ghost predicate IsSqrt(sqrt: real -> real)
  {
    forall x :: 0.0 <= x ==> 0.0 <= sqrt(x) && sqrt(x) * sqrt(x) == x
  }

  function Abs(x: real): (r: real)
    ensures r >= 0.0 && (r == x || r == -x)
  {
    if x < 0.0 then -x else x
  }

  /** `validPoints`: how many actuals are non-zero. */
  function ValidPoints(actual: seq<real>): (n: nat)
    ensures n <= |actual|
  {
    if |actual| == 0 then 0
    else ValidPoints(actual[..|actual| - 1]) + (if actual[|actual| - 1] != 0.0 then 1 else 0)
  }

  /** `mapeSum`: the relative errors `|(a - p) / a|` of the non-zero actuals. */
  function RelativeErrorSum(actual: seq<real>, predicted: seq<real>): (r: real)
    requires |actual| == |predicted|
    ensures r >= 0.0
  {
    if |actual| == 0 then 0.0
    else
      var n := |actual| - 1;
      RelativeErrorSum(actual[..n], predicted[..n])
        + (if actual[n] != 0.0 then Abs((actual[n] - predicted[n]) / actual[n]) else 0.0)
  }

  /** `mseSum`: the squared errors of every point, zero actuals included. */
  function SquaredErrorSum(actual: seq<real>, predicted: seq<real>): (r: real)
    requires |actual| == |predicted|
    ensures r >= 0.0
  {
    if |actual| == 0 then 0.0
    else
      var n := |actual| - 1;
      SquaredErrorSum(actual[..n], predicted[..n]) + (actual[n] - predicted[n]) * (actual[n] - predicted[n])
  }

  function CalculateMetrics(actual: seq<real>, predicted: seq<real>, sqrt: real -> real): (m: Metrics)
    requires IsSqrt(sqrt)
    ensures |actual| != |predicted| || |actual| == 0 ==> m == Metrics(0.0, 0.0)
    ensures m.mape >= 0.0 && m.rmse >= 0.0
    ensures ValidPoints(actual) == 0 ==> m.mape == 0.0
    ensures |actual| == |predicted| && ValidPoints(actual) > 0 ==>
              m.mape * ValidPoints(actual) as real == 100.0 * RelativeErrorSum(actual, predicted)
    ensures |actual| == |predicted| && |actual| > 0 ==>
              m.rmse * m.rmse * |actual| as real == SquaredErrorSum(actual, predicted)
  {
    if |actual| != |predicted| || |actual| == 0 then Metrics(0.0, 0.0)
    else
      var validPoints := ValidPoints(actual);
      var mape :=
        if validPoints > 0 then
          PercentageScales(RelativeErrorSum(actual, predicted), validPoints as real);
          (RelativeErrorSum(actual, predicted) / validPoints as real) * 100.0
        else 0.0;
      var rmse := sqrt(SquaredErrorSum(actual, predicted) / |actual| as real);
      RootScales(SquaredErrorSum(actual, predicted), |actual| as real, sqrt);
      Metrics(mape, rmse)
  }

  /** Dividing a non-negative `x` by a positive `n` gives a non-negative
      quotient that `n` scales back to `x`. */
  lemma QuotientScales(x: real, n: real)
    requires x >= 0.0 && n > 0.0
    ensures x / n >= 0.0 && (x / n) * n == x
  {
  }

  /** The percentage `x / n * 100` is non-negative and `n` scales it back
      to `100 * x`. */
  lemma PercentageScales(x: real, n: real)
    requires x >= 0.0 && n > 0.0
    ensures (x / n) * 100.0 >= 0.0 && ((x / n) * 100.0) * n == 100.0 * x
  {
    QuotientScales(x, n);
  }

  /** The root of the mean `x / n` is non-negative and its square scales
      back to `x`. */
  lemma RootScales(x: real, n: real, sqrt: real -> real)
    requires IsSqrt(sqrt) && x >= 0.0 && n > 0.0
    ensures sqrt(x / n) >= 0.0 && sqrt(x / n) * sqrt(x / n) * n == x
  {
    QuotientScales(x, n);
    var r := sqrt(x / n);
    assert r * r == x / n;
  }

  /** A prediction at a point whose actual is zero never reaches MAPE. */
  lemma {:induction false} RelativeErrorIgnoresZeroActual(actual: seq<real>, predicted: seq<real>, k: nat, q: real)
    requires |actual| == |predicted| && k < |actual| && actual[k] == 0.0
    ensures RelativeErrorSum(actual, predicted[k := q]) == RelativeErrorSum(actual, predicted)
    decreases |actual|
  {
    var n := |actual| - 1;
    var p' := predicted[k := q];
    if k < n {
      assert p'[..n] == predicted[..n][k := q];
      RelativeErrorIgnoresZeroActual(actual[..n], predicted[..n], k, q);
    } else {
      assert p'[..n] == predicted[..n];
    }
  }

  /** MAPE skips zero actuals: whatever is predicted for such a day, MAPE does not move. */
  lemma MapeIgnoresZeroActuals(actual: seq<real>, predicted: seq<real>, sqrt: real -> real, k: nat, q: real)
    requires IsSqrt(sqrt)
    requires |actual| == |predicted| && k < |actual| && actual[k] == 0.0
    ensures CalculateMetrics(actual, predicted[k := q], sqrt).mape == CalculateMetrics(actual, predicted, sqrt).mape
  {
    RelativeErrorIgnoresZeroActual(actual, predicted, k, q);
  }

  lemma {:induction false} SquaredErrorZeroIff(actual: seq<real>, predicted: seq<real>)
    requires |actual| == |predicted|
    ensures SquaredErrorSum(actual, predicted) == 0.0 <==> actual == predicted
    decreases |actual|
  {
    if |actual| > 0 {
      var n := |actual| - 1;
      var d := actual[n] - predicted[n];
      SquaredErrorZeroIff(actual[..n], predicted[..n]);
      assert actual == actual[..n] + [actual[n]] && predicted == predicted[..n] + [predicted[n]];
      assert d * d >= 0.0;
      if SquaredErrorSum(actual, predicted) == 0.0 {
        SquareZero(d);
      }
    } else {
      assert actual == [] && predicted == [];
    }
  }

  /** A product of reals is zero only when a factor is. Stated over two
      factors: the solver reasons about `a * b` more reliably than about a
      square `t * t`. */
  lemma ProductZero(a: real, b: real)
    requires a * b == 0.0
    ensures a == 0.0 || b == 0.0
  {
  }

  /** A zero square (one squared error, or `rmse * rmse`) has a zero base. */
  lemma SquareZero(t: real)
    requires t * t == 0.0
    ensures t == 0.0
  {
    ProductZero(t, t);
  }

  lemma {:induction false} RelativeErrorZeroIff(actual: seq<real>, predicted: seq<real>)
    requires |actual| == |predicted|
    ensures RelativeErrorSum(actual, predicted) == 0.0 <==>
              forall i :: 0 <= i < |actual| && actual[i] != 0.0 ==> predicted[i] == actual[i]
    decreases |actual|
  {
    if |actual| > 0 {
      var n := |actual| - 1;
      RelativeErrorZeroIff(actual[..n], predicted[..n]);
      if actual[n] != 0.0 && predicted[n] != actual[n] {
        assert (actual[n] - predicted[n]) / actual[n] != 0.0;
      }
    }
  }

  /** Over equal-length non-empty inputs, RMSE is zero exactly when the
      prediction is exact, and MAPE is zero exactly when it is exact at every
      non-zero actual. */
  lemma PerfectPredictionIff(actual: seq<real>, predicted: seq<real>, sqrt: real -> real)
    requires IsSqrt(sqrt)
    requires |actual| == |predicted| && |actual| > 0
    ensures var m := CalculateMetrics(actual, predicted, sqrt);
            && (m.rmse == 0.0 <==> actual == predicted)
            && (m.mape == 0.0 <==> forall i :: 0 <= i < |actual| && actual[i] != 0.0 ==> predicted[i] == actual[i])
  {
    RmseZeroIff(actual, predicted, sqrt);
    MapeZeroIff(actual, predicted, sqrt);
  }

  lemma RmseZeroIff(actual: seq<real>, predicted: seq<real>, sqrt: real -> real)
    requires IsSqrt(sqrt)
    requires |actual| == |predicted| && |actual| > 0
    ensures CalculateMetrics(actual, predicted, sqrt).rmse == 0.0 <==> actual == predicted
  {
    var rmse := CalculateMetrics(actual, predicted, sqrt).rmse;
    var sq := rmse * rmse;
    var ses := SquaredErrorSum(actual, predicted);
    SquaredErrorZeroIff(actual, predicted);
    assert sq * |actual| as real == ses;
    if ses == 0.0 {
      ProductZero(sq, |actual| as real);
      SquareZero(rmse);
    }
  }

  lemma MapeZeroIff(actual: seq<real>, predicted: seq<real>, sqrt: real -> real)
    requires IsSqrt(sqrt)
    requires |actual| == |predicted| && |actual| > 0
    ensures CalculateMetrics(actual, predicted, sqrt).mape == 0.0 <==>
              forall i :: 0 <= i < |actual| && actual[i] != 0.0 ==> predicted[i] == actual[i]
  {
    RelativeErrorZeroIff(actual, predicted);
    if ValidPoints(actual) == 0 {
      NoValidPoints(actual);
    }
  }

  lemma {:induction false} NoValidPoints(actual: seq<real>)
    requires ValidPoints(actual) == 0
    ensures forall i :: 0 <= i < |actual| ==> actual[i] == 0.0
    decreases |actual|
  {
    if |actual| > 0 {
      NoValidPoints(actual[..|actual| - 1]);
    }
  }

  /** Scoring a series against itself gives `{0, 0}`. */
  lemma IdenticalSeries(actual: seq<real>, sqrt: real -> real)
    requires IsSqrt(sqrt)
    ensures CalculateMetrics(actual, actual, sqrt) == Metrics(0.0, 0.0)
  {
    if |actual| > 0 {
      PerfectPredictionIff(actual, actual, sqrt);
    }
  }
}

=== FILE: pipeline.dfy ===
/** The computational part of the `gerar-previsao` handler: validate the
    request, hold out the last week of sales, forecast, score the held-out
    week, assemble one row per horizon day and size today's stock movements.
    The database reads and writes around it are the caller's business: the
    sales series comes in as a parameter and the rows and control record go
    out as the result. */
module Pipeline {
  import opened Results
  import opened Series
  import opened ForecastModel
  import opened Accuracy
  import opened Records

  /** `testeDays`: the held-out week. */
  const TestDays: nat := 7

  /** Fewer sales than this are refused. */
  const MinSales: nat := 14

  /** `diasPrevisao` when the request does not give one. */
  const DefaultHorizon: int := 9

  /** `perdaPeso`: the weight lost while thawing. */
  const WeightLoss: real := 0.15

  datatype PipelineError = MissingProductId | InsufficientData

  datatype PipelineOutput = PipelineOutput(rows: seq<ForecastRow>, control: ControlState, metrics: Metrics)

  /** How many times `for (let i = 0; i < n; i++)` runs. */
  function Iterations(n: int): (k: nat)
    ensures n >= 0 ==> k == n
    ensures n < 0 ==> k == 0
  {
    if n < 0 then 0 else n
  }

  /** One row per horizon day. Row `i` reads index `testeDays + i` of a
      forecast that is only `diasPrevisao` long, so the rows near the end of
      the horizon fall off the forecast and default to 0. */
  function BuildRows(f: ForecastResult, count: nat, m: Metrics): (rows: seq<ForecastRow>)
    ensures |rows| == count
    ensures forall i :: 0 <= i < count ==> rows[i].mape == m.mape && rows[i].rmse == m.rmse
    ensures forall i :: 0 <= i < count ==>
              && rows[i].demand == At(f.mean, TestDays + i)
              && rows[i].lower == At(f.lower, TestDays + i)
              && rows[i].upper == At(f.upper, TestDays + i)
  {
    seq(count, i requires 0 <= i < count =>
          ForecastRow(At(f.mean, TestDays + i), At(f.lower, TestDays + i), At(f.upper, TestDays + i),
                      m.mape, m.rmse))
  }

  /** The demand of row `k`, or 0 when there is no such row
      (`previsoesParaInserir[k]?.demanda_prevista || 0`). */
  function DemandAt(rows: seq<ForecastRow>, k: nat): (r: real)
    ensures k < |rows| ==> r == rows[k].demand
    ensures k >= |rows| ==> r == 0.0
  {
    if k < |rows| then rows[k].demand else 0.0
  }

  /** Today's stock movements, each inflated by the weight lost in thawing:
      withdraw for the day after tomorrow, thaw for tomorrow, and make
      available what sold on the last recorded day. */
  function StockControl(rows: seq<ForecastRow>, sales: seq<real>): (c: ControlState)
    ensures c.weightLoss == WeightLoss
    ensures c.withdrawToday * (1.0 - WeightLoss) == DemandAt(rows, 1)
    ensures c.inThaw * (1.0 - WeightLoss) == DemandAt(rows, 0)
    ensures c.availableToday * (1.0 - WeightLoss) == At(sales, |sales| - 1)
  {
    var lastSale := At(sales, |sales| - 1);
    ControlState(DemandAt(rows, 1) / (1.0 - WeightLoss),
                 DemandAt(rows, 0) / (1.0 - WeightLoss),
                 lastSale / (1.0 - WeightLoss),
                 WeightLoss)
  }

  /** The training series handed to the model. */
  function Training(sales: seq<real>): seq<real>
  {
    DropLast(sales, TestDays)
  }

  /** The forecast the handler computes for a horizon of `h` rows. */
  function HandlerForecast(sales: seq<real>, h: nat): ForecastResult
  {
    Forecast(Training(sales), DefaultSeasonality, h)
  }

  /** Everything after validation, for a forecast of `steps` days and a
      horizon of `h` rows. */
  function Assemble(sales: seq<real>, steps: nat, h: nat, sqrt: real -> real): (out: PipelineOutput)
    requires IsSqrt(sqrt) && |sales| >= MinSales
    ensures |out.rows| == h
    ensures out.control == StockControl(out.rows, sales)
    ensures forall i :: 0 <= i < h ==> out.rows[i].mape == out.metrics.mape && out.rows[i].rmse == out.metrics.rmse
    ensures forall i :: 0 <= i < h ==>
              && out.rows[i].demand == At(HandlerForecast(sales, steps).mean, TestDays + i)
              && out.rows[i].lower == At(HandlerForecast(sales, steps).lower, TestDays + i)
              && out.rows[i].upper == At(HandlerForecast(sales, steps).upper, TestDays + i)
    ensures out.metrics == CalculateMetrics(sales[|sales| - TestDays..],
                                            HandlerForecast(sales, steps).mean[..Min(TestDays, steps)], sqrt)
  {
    var train := Training(sales);
    var test := TakeLast(sales, TestDays);
    var full := Forecast(train, DefaultSeasonality, steps);
    var testForecast := full.mean[..Min(TestDays, |full.mean|)];
    var metrics := CalculateMetrics(test, testForecast, sqrt);
    var rows := BuildRows(full, h, metrics);
    PipelineOutput(rows, StockControl(rows, sales), metrics)
  }

  /** The whole handler, minus I/O. `requested` is the request's
      `diasPrevisao` (absent: 9); `sqrt` stands for `Math.sqrt`. The
      forecast is `testeDays + diasPrevisao - testeDays` days long, that is
      `diasPrevisao` days. */
  function GenerateForecast(productId: JsonValue, sales: seq<real>, requested: Option<int>,
                            sqrt: real -> real): (r: Result<PipelineOutput, PipelineError>)
    requires IsSqrt(sqrt)
    ensures r == Failure(MissingProductId) <==> IsFalsy(productId)
    ensures r == Failure(InsufficientData) <==> !IsFalsy(productId) && |sales| < MinSales
    ensures r.Success? ==>
              var h := Iterations(requested.GetOr(DefaultHorizon));
              var f := HandlerForecast(sales, h);
              && |r.value.rows| == h
              && (forall i :: 0 <= i < h ==>
                    r.value.rows[i].mape == r.value.metrics.mape && r.value.rows[i].rmse == r.value.metrics.rmse)
              && (forall i :: 0 <= i < h && TestDays + i < h ==>
                    r.value.rows[i].demand == f.mean[TestDays + i]
                    && r.value.rows[i].lower == f.lower[TestDays + i]
                    && r.value.rows[i].upper == f.upper[TestDays + i])
              && (forall i :: 0 <= i < h && TestDays + i >= h ==>
                    r.value.rows[i].demand == 0.0 && r.value.rows[i].lower == 0.0 && r.value.rows[i].upper == 0.0)
              && (h < TestDays ==> r.value.metrics == Metrics(0.0, 0.0))
              && (h >= TestDays ==>
                    r.value.metrics == CalculateMetrics(sales[|sales| - TestDays..], f.mean[..TestDays], sqrt))
              && r.value.metrics.mape >= 0.0 && r.value.metrics.rmse >= 0.0
              && r.value.control == StockControl(r.value.rows, sales)
  {
    if IsFalsy(productId) then Failure(MissingProductId)
    else if |sales| < MinSales then Failure(InsufficientData)
    else
      var horizon := requested.GetOr(DefaultHorizon);
      Success(Assemble(sales, Iterations(TestDays + horizon - TestDays), Iterations(horizon), sqrt))
  }

  /** The handler as evidently intended: forecast the held-out week and then
      the horizon, `testeDays + diasPrevisao` days, so that row `i` reads the
      forecast for the i-th day after the data and the test window is always
      scored. */
  function GenerateForecastIntended(productId: JsonValue, sales: seq<real>, requested: Option<int>,
                                    sqrt: real -> real): (r: Result<PipelineOutput, PipelineError>)
    requires IsSqrt(sqrt)
    ensures r == Failure(MissingProductId) <==> IsFalsy(productId)
    ensures r == Failure(InsufficientData) <==> !IsFalsy(productId) && |sales| < MinSales
    ensures r.Success? ==> IntendedOutput(r.value, sales, Iterations(requested.GetOr(DefaultHorizon)), sqrt)
  {
    if IsFalsy(productId) then Failure(MissingProductId)
    else if |sales| < MinSales then Failure(InsufficientData)
    else
      var h := Iterations(requested.GetOr(DefaultHorizon));
      IntendedReads(sales, h, sqrt);
      Success(Assemble(sales, TestDays + h, h, sqrt))
  }

  /** The output of the intended handler for a horizon of `h` rows: row `i`
      reads day `testeDays + i` of a `testeDays + h`-day forecast, which is
      always in range; the metrics score the test week against the first
      seven forecast days and every row carries them; the control record
      follows the rows. */
  ghost predicate IntendedOutput(out: PipelineOutput, sales: seq<real>, h: nat, sqrt: real -> real)
    requires IsSqrt(sqrt) && |sales| >= MinSales
  {
    && IntendedRows(out.rows, sales, h)
    && (forall i :: 0 <= i < h ==> out.rows[i].mape == out.metrics.mape && out.rows[i].rmse == out.metrics.rmse)
    && out.metrics == CalculateMetrics(sales[|sales| - TestDays..], HandlerForecast(sales, TestDays + h).mean[..TestDays], sqrt)
    && out.control == StockControl(out.rows, sales)
  }

  /** `h` rows, row `i` reading day `testeDays + i` of a `testeDays + h`-day
      forecast. */
  ghost predicate IntendedRows(rows: seq<ForecastRow>, sales: seq<real>, h: nat)
  {
    var f := HandlerForecast(sales, TestDays + h);
    && |rows| == h
    && forall i :: 0 <= i < h ==>
         rows[i].demand == f.mean[TestDays + i]
         && rows[i].lower == f.lower[TestDays + i]
         && rows[i].upper == f.upper[TestDays + i]
  }

  /** With a forecast of `testeDays + h` days every row index `testeDays + i`
      is in range, and the test week is always scored. */
  lemma IntendedReads(sales: seq<real>, h: nat, sqrt: real -> real)
    requires IsSqrt(sqrt) && |sales| >= MinSales
    ensures IntendedOutput(Assemble(sales, TestDays + h, h, sqrt), sales, h, sqrt)
  {
    var out := Assemble(sales, TestDays + h, h, sqrt);
    var f := HandlerForecast(sales, TestDays + h);
    forall i | 0 <= i < h
      ensures out.rows[i].demand == f.mean[TestDays + i]
      ensures out.rows[i].lower == f.lower[TestDays + i]
      ensures out.rows[i].upper == f.upper[TestDays + i]
    {
    }
    assert IntendedRows(out.rows, sales, h);
    assert Min(TestDays, TestDays + h) == TestDays;
  }

  /** Reading index `testeDays + i` is the same as reading index `i`: the
      forecast repeats every seven days. So a row that exists carries the
      forecast of the i-th day after the training data; the rest are 0. */
  lemma RowsRepeatForecast(productId: JsonValue, sales: seq<real>, requested: Option<int>,
                           sqrt: real -> real)
    requires IsSqrt(sqrt)
    requires !IsFalsy(productId) && |sales| >= MinSales
    ensures var out := GenerateForecast(productId, sales, requested, sqrt).value;
            var h := Iterations(requested.GetOr(DefaultHorizon));
            var f := HandlerForecast(sales, h);
            forall i :: 0 <= i < h ==>
              && out.rows[i].demand == (if TestDays + i < h then f.mean[i] else 0.0)
              && out.rows[i].lower == (if TestDays + i < h then f.lower[i] else 0.0)
              && out.rows[i].upper == (if TestDays + i < h then f.upper[i] else 0.0)
  {
    var h := Iterations(requested.GetOr(DefaultHorizon));
    assert GenerateForecast(productId, sales, requested, sqrt).value == Assemble(sales, h, h, sqrt);
    AssembledRowsRepeat(sales, h, sqrt);
  }

  /** `RowsRepeatForecast` for the assembled output of an `h`-day forecast. */
  lemma AssembledRowsRepeat(sales: seq<real>, h: nat, sqrt: real -> real)
    requires IsSqrt(sqrt) && |sales| >= MinSales
    ensures var out := Assemble(sales, h, h, sqrt);
            var f := HandlerForecast(sales, h);
            forall i :: 0 <= i < h ==>
              && out.rows[i].demand == (if TestDays + i < h then f.mean[i] else 0.0)
              && out.rows[i].lower == (if TestDays + i < h then f.lower[i] else 0.0)
              && out.rows[i].upper == (if TestDays + i < h then f.upper[i] else 0.0)
  {
    var out := Assemble(sales, h, h, sqrt);
    var f := HandlerForecast(sales, h);
    ForecastPeriodic(Training(sales), DefaultSeasonality, h);
    assert Periodic(f.mean, TestDays) && Periodic(f.lower, TestDays) && Periodic(f.upper, TestDays);
    assert out.rows == BuildRows(f, h, out.metrics);
    RowsOfPeriodicForecast(f, h, out.metrics);
  }

  /** Over a forecast of `count` days that repeats weekly, row `i` holds the
      forecast of day `i` while `testeDays + i` is in range, and zeros after. */
  lemma RowsOfPeriodicForecast(f: ForecastResult, count: nat, m: Metrics)
    requires |f.mean| == count && |f.lower| == count && |f.upper| == count
    requires Periodic(f.mean, TestDays) && Periodic(f.lower, TestDays) && Periodic(f.upper, TestDays)
    ensures var rows := BuildRows(f, count, m);
            forall i :: 0 <= i < count ==>
              && rows[i].demand == (if TestDays + i < count then f.mean[i] else 0.0)
              && rows[i].lower == (if TestDays + i < count then f.lower[i] else 0.0)
              && rows[i].upper == (if TestDays + i < count then f.upper[i] else 0.0)
  {
  }

  /** With the default horizon of nine days, only the first two rows carry
      a forecast; the other seven are all zeros. */
  lemma DefaultHorizonRows(productId: JsonValue, sales: seq<real>, sqrt: real -> real)
    requires IsSqrt(sqrt)
    requires !IsFalsy(productId) && |sales| >= MinSales
    ensures var out := GenerateForecast(productId, sales, None, sqrt).value;
            var f := HandlerForecast(sales, 9);
            && |out.rows| == 9
            && out.rows[0].demand == f.mean[0] && out.rows[1].demand == f.mean[1]
            && forall i :: 2 <= i < 9 ==>
                 out.rows[i].demand == 0.0 && out.rows[i].lower == 0.0 && out.rows[i].upper == 0.0
  {
    RowsRepeatForecast(productId, sales, None, sqrt);
  }

  /** Today's stock movements in terms of the forecast itself: withdraw the
      second forecast day only when the horizon has at least nine rows, thaw
      the first only when it has at least eight, and make available the last
      sale of the whole series (not of the training part). */
  lemma StockFromForecast(productId: JsonValue, sales: seq<real>, requested: Option<int>,
                          sqrt: real -> real)
    requires IsSqrt(sqrt)
    requires !IsFalsy(productId) && |sales| >= MinSales
    ensures var c := GenerateForecast(productId, sales, requested, sqrt).value.control;
            var h := Iterations(requested.GetOr(DefaultHorizon));
            var f := HandlerForecast(sales, h);
            && c.withdrawToday == (if h >= 9 then f.mean[1] else 0.0) / 0.85
            && c.inThaw == (if h >= 8 then f.mean[0] else 0.0) / 0.85
            && c.availableToday == sales[|sales| - 1] / 0.85
            && c.withdrawToday >= 0.0 && c.inThaw >= 0.0
            && (c.availableToday >= 0.0 <==> sales[|sales| - 1] >= 0.0)
  {
    RowsRepeatForecast(productId, sales, requested, sqrt);
  }

  /** Once the handler accepts the series, the training part holds at least
      one full week, so the seasonal pattern never falls back to the
      seven-day average; and the trend is zero unless at least 21 sales were
      recorded. */
  lemma AcceptedSeriesShape(sales: seq<real>, step: nat)
    requires |sales| >= MinSales
    ensures |Training(sales)| == |sales| - TestDays
    ensures Training(sales) + sales[|sales| - TestDays..] == sales
    ensures |SeasonalValues(Training(sales), DefaultSeasonality, step)| > 0
    ensures |sales| < MinSales + TestDays ==> Trend(Training(sales)) == 0.0
  {
    assert step % DefaultSeasonality < 7;
  }

  /** Row `i` holds the floored point forecast of step `i` of the training
      data, and 120% of that point forecast as its upper bound. */
  ghost predicate RowsFollowPointForecast(out: PipelineOutput, sales: seq<real>)
    requires |sales| >= MinSales
  {
    forall i :: 0 <= i < |out.rows| ==>
      out.rows[i].demand == Max0(PointForecast(Training(sales), DefaultSeasonality, i))
      && out.rows[i].upper == 1.2 * PointForecast(Training(sales), DefaultSeasonality, i)
  }

  /** In the intended handler every row carries the forecast of its own day,
      whatever the horizon: row `i` is the floored point forecast of step `i`
      and its band, never a default. */
  lemma IntendedRowsFollowForecast(productId: JsonValue, sales: seq<real>, requested: Option<int>,
                                   sqrt: real -> real)
    requires IsSqrt(sqrt)
    requires !IsFalsy(productId) && |sales| >= MinSales
    ensures RowsFollowPointForecast(GenerateForecastIntended(productId, sales, requested, sqrt).value, sales)
  {
    var h := Iterations(requested.GetOr(DefaultHorizon));
    IntendedRowsFollow(GenerateForecastIntended(productId, sales, requested, sqrt).value.rows, sales, h);
  }

  /** Reading day `testeDays + i` of the forecast gives the point forecast
      of step `i`, because the forecast repeats weekly. */
  lemma IntendedRowsFollow(rows: seq<ForecastRow>, sales: seq<real>, h: nat)
    requires IntendedRows(rows, sales, h)
    ensures forall i :: 0 <= i < |rows| ==>
              rows[i].demand == Max0(PointForecast(Training(sales), DefaultSeasonality, i))
              && rows[i].upper == 1.2 * PointForecast(Training(sales), DefaultSeasonality, i)
  {
    ShiftedRowsFollow(rows, Training(sales), DefaultSeasonality, h);
  }

  /** Rows that read days `s .. s + h` of an `s + h`-step forecast with
      cycle `s` hold the point forecasts of steps `0 .. h`. */
  lemma ShiftedRowsFollow(rows: seq<ForecastRow>, data: seq<real>, s: nat, h: nat)
    requires s > 0 && |rows| == h
    requires var g := Forecast(data, s, s + h);
             forall i :: 0 <= i < h ==> rows[i].demand == g.mean[s + i] && rows[i].upper == g.upper[s + i]
    ensures forall i :: 0 <= i < h ==>
              rows[i].demand == Max0(PointForecast(data, s, i))
              && rows[i].upper == 1.2 * PointForecast(data, s, i)
  {
    forall i | 0 <= i < h
      ensures rows[i].demand == Max0(PointForecast(data, s, i))
              && rows[i].upper == 1.2 * PointForecast(data, s, i)
    {
      ForecastShift(data, s, s + h, i);
    }
  }

  /** The handler as written and the intended one refuse the same requests
      with the same error. */
  lemma SameRefusals(productId: JsonValue, sales: seq<real>, requested: Option<int>, sqrt: real -> real)
    requires IsSqrt(sqrt)
    ensures var r := GenerateForecast(productId, sales, requested, sqrt);
            var q := GenerateForecastIntended(productId, sales, requested, sqrt);
            && (r.Failure? <==> q.Failure?)
            && (r.Failure? ==> r == q)
  {
  }

  /** `asWritten` has the `h` rows of `intended`, agrees with it on the
      first `h - 7` of them and has zero demand in the rest; the metrics
      agree once the horizon covers the test week. */
  ghost predicate AgreesWithIntended(asWritten: PipelineOutput, intended: PipelineOutput, h: nat)
  {
    && |asWritten.rows| == |intended.rows| == h
    && (forall i :: 0 <= i < h && TestDays + i < h ==> asWritten.rows[i] == intended.rows[i])
    && (forall i :: 0 <= i < h && TestDays + i >= h ==> asWritten.rows[i].demand == 0.0)
    && (h >= TestDays ==> asWritten.metrics == intended.metrics)
  }

  /** On an accepted request the handler as written agrees with the intended
      one on the first `diasPrevisao - 7` rows and zeroes the rest; it scores
      the test week only when the horizon is at least a week long, and then
      with the same result. */
  lemma AsWrittenVersusIntended(productId: JsonValue, sales: seq<real>, requested: Option<int>,
                                sqrt: real -> real)
    requires IsSqrt(sqrt)
    requires !IsFalsy(productId) && |sales| >= MinSales
    ensures AgreesWithIntended(GenerateForecast(productId, sales, requested, sqrt).value,
                               GenerateForecastIntended(productId, sales, requested, sqrt).value,
                               Iterations(requested.GetOr(DefaultHorizon)))
  {
    var h := Iterations(requested.GetOr(DefaultHorizon));
    HandlersAssemble(productId, sales, requested, sqrt);
    AssembledResultsAgree(GenerateForecast(productId, sales, requested, sqrt),
                          GenerateForecastIntended(productId, sales, requested, sqrt), sales, h, sqrt);
  }

  /** `AssembleAgrees`, for two results that hold those assemblies. */
  lemma AssembledResultsAgree(asWritten: Result<PipelineOutput, PipelineError>,
                              intended: Result<PipelineOutput, PipelineError>,
                              sales: seq<real>, h: nat, sqrt: real -> real)
    requires IsSqrt(sqrt) && |sales| >= MinSales
    requires asWritten == Success(Assemble(sales, h, h, sqrt))
    requires intended == Success(Assemble(sales, TestDays + h, h, sqrt))
    ensures AgreesWithIntended(asWritten.value, intended.value, h)
  {
    AssembleAgrees(sales, h, sqrt);
  }

  /** On an accepted request both handlers return an assembly: as written of
      `diasPrevisao` forecast days, as intended of `testeDays + diasPrevisao`. */
  lemma HandlersAssemble(productId: JsonValue, sales: seq<real>, requested: Option<int>, sqrt: real -> real)
    requires IsSqrt(sqrt)
    requires !IsFalsy(productId) && |sales| >= MinSales
    ensures var h := Iterations(requested.GetOr(DefaultHorizon));
            && GenerateForecast(productId, sales, requested, sqrt) == Success(Assemble(sales, h, h, sqrt))
            && GenerateForecastIntended(productId, sales, requested, sqrt)
                 == Success(Assemble(sales, TestDays + h, h, sqrt))
  {
  }

  /** The two forecast lengths give the same rows wherever the shorter one
      still reaches, zero demand where it does not, and the same metrics
      once it covers the test week. */
  lemma AssembleAgrees(sales: seq<real>, h: nat, sqrt: real -> real)
    requires IsSqrt(sqrt) && |sales| >= MinSales
    ensures AgreesWithIntended(Assemble(sales, h, h, sqrt), Assemble(sales, TestDays + h, h, sqrt), h)
  {
    var a := Assemble(sales, h, h, sqrt);
    var b := Assemble(sales, TestDays + h, h, sqrt);
    var f := HandlerForecast(sales, h);
    var g := HandlerForecast(sales, TestDays + h);
    ForecastExtends(Training(sales), DefaultSeasonality, h, TestDays + h);
    if h >= TestDays {
      assert f.mean[..TestDays] == g.mean[..h][..TestDays] == g.mean[..TestDays];
    }
    forall i | 0 <= i < h && TestDays + i < h
      ensures a.rows[i] == b.rows[i]
    {
      assert f.mean[TestDays + i] == g.mean[TestDays + i];
      assert f.lower[TestDays + i] == g.lower[TestDays + i];
      assert f.upper[TestDays + i] == g.upper[TestDays + i];
    }
    forall i | 0 <= i < h && TestDays + i >= h
      ensures a.rows[i].demand == 0.0
    {
      assert a.rows[i].demand == At(f.mean, TestDays + i);
    }
  }

  /** A concrete witness of the difference: for two weeks of a constant
      positive sale `c` and the default horizon, the handler as written stores
      0 as the demand of the third day, where the intended handler stores `c`. */
  lemma ConstantSalesShowZeroedRows(productId: JsonValue, sales: seq<real>, c: real, sqrt: real -> real)
    requires IsSqrt(sqrt) && !IsFalsy(productId)
    requires |sales| == MinSales && Constant(sales, c) && c > 0.0
    ensures GenerateForecast(productId, sales, None, sqrt).value.rows[2].demand == 0.0
    ensures GenerateForecastIntended(productId, sales, None, sqrt).value.rows[2].demand == c
  {
    var train := Training(sales);
    assert |train| == 7 && Constant(train, c);
    var g := HandlerForecast(sales, TestDays + 9);
    ConstantSeriesForecast(train, c, DefaultSeasonality, TestDays + 9);
    assert g.mean[TestDays + 2] == c;
    var q := GenerateForecastIntended(productId, sales, None, sqrt);
    assert q.value.rows[2].demand == g.mean[TestDays + 2];
    var r := GenerateForecast(productId, sales, None, sqrt);
    assert TestDays + 2 >= 9;
  }
}

=== FILE: readback.dfy ===
/** What the dashboard shows right after `gerar-previsao` has run: it reads
    back the control record the forecast run stored and the forecast rows
    dated from today on. */
module ReadBack {
  import opened Results
  import opened Series
  import opened Records
  import P = Pipeline
  import D = Dashboard

  /** The dashboard's forecast query after a run: every stored row is dated
      tomorrow or later, so it returns the first ten of them. */
  function ShownRows(rows: seq<ForecastRow>): (shown: seq<ForecastRow>)
    ensures |shown| == Min(10, |rows|)
    ensures shown == rows[..|shown|]
  {
    rows[..Min(10, |rows|)]
  }

  /** Reading back a fresh forecast run (the handler as written or as
      intended: both store `StockControl` of their rows), the dashboard's
      headline numbers are the stored quantities with a 15% loss, and the
      schedule shows the same amount, today's withdrawal, on all six days:
      the day-2 figure it recomputes from the second forecast row is exactly
      what the forecast run stored as today's withdrawal. */
  lemma DashboardAfterForecast(out: P.PipelineOutput, sales: seq<real>, productId: Option<string>,
                               recentSales: seq<real>)
    requires out.control == P.StockControl(out.rows, sales)
    requires !IsMissingId(productId)
    ensures var control := Some(out.control);
            && D.DivisibleLoss(control)
            && var d := D.BuildDashboard(productId, control, ShownRows(out.rows), recentSales);
               && d.Success?
               && d.value.metrics == D.HeadlineMetrics(out.control.withdrawToday, out.control.inThaw,
                                                       out.control.availableToday, 0.15)
               && (forall k :: 0 <= k < D.ScheduleDays ==> d.value.schedule[k].amount == out.control.withdrawToday)
               && (d.value.model.mape.Some? <==> |out.rows| > 0 && out.rows[0].mape != 0.0)
  {
    var control := Some(out.control);
    var shown := ShownRows(out.rows);
    var sched := D.BuildSchedule(control, shown);
    forall k | 0 <= k < D.ScheduleDays
      ensures sched[k].amount == out.control.withdrawToday
    {
      if k % 2 == 1 {
        assert sched[k].amount * 0.85 == P.DemandAt(out.rows, 1);
      }
    }
  }
}

=== FILE: records.dfy ===
/** The rows the two edge functions exchange through the database: one
    forecast row per horizon day (table `previsoes`) and one inventory-control
    record per product and reference date (table `controle_estoque`). Product
    ids, dates and timestamps are not modelled. */
module Records {
  import opened Results

  /** A `previsoes` row: `demanda_prevista`, `intervalo_confianca_inferior`,
      `intervalo_confianca_superior`, `mape`, `rmse`. */
  datatype ForecastRow = ForecastRow(demand: real, lower: real, upper: real, mape: real, rmse: real)

  /** A `controle_estoque` record: `qtd_retirar_hoje`, `qtd_em_descongelamento`,
      `qtd_disponivel_hoje`, `perda_peso`. */
  datatype ControlState = ControlState(withdrawToday: real, inThaw: real, availableToday: real, weightLoss: real)

  /** A JSON value as `req.json()` hands it over. The contents of arrays and
      objects do not matter here: both are always truthy. */
  datatype JsonValue = Undefined | Null | Bool(b: bool) | Number(n: real) | Text(s: string) | Structured

  /** `!v` on a value read from a JSON body: `undefined`, `null`, `false`,
      `0` and `""` are falsy, everything else is truthy. JSON has no `NaN`. */
  function IsFalsy(v: JsonValue): (falsy: bool)
    ensures falsy <==> v == Undefined || v == Null || v == Bool(false) || v == Number(0.0) || v == Text("")
    ensures !falsy ==> v.Structured? || (v.Bool? && v.b) || (v.Number? && v.n != 0.0) || (v.Text? && |v.s| > 0)
  {
    match v
    case Undefined => true
    case Null => true
    case Bool(b) => !b
    case Number(n) => n == 0.0
    case Text(s) => s == ""
    case Structured => false
  }

  /** `!idProduto` on a query parameter (`searchParams.get` gives a string or
      `null`): the product id is absent or the empty string. */
  function IsMissingId(productId: Option<string>): (missing: bool)
    ensures missing <==> productId.None? || |productId.value| == 0
  {
    match productId
    case None => true
    case Some(id) => id == ""
  }
}

=== FILE: results.dfy ===
/** Failure-carrying wrappers: a value that may be missing (JavaScript's
    `undefined` / optional chaining) and an operation that may fail (a thrown
    `Error` in the edge functions). */
module Results {

  datatype Option<+T> = None | Some(value: T) {

    /** The wrapped value, or `default` when there is none (the `?? d` / `|| d` idiom). */
    function GetOr(default: T): T {
      match this
      case Some(v) => v
      case None => default
    }
  }

  datatype Result<+R, +E> = Success(value: R) | Failure(error: E)
}

=== FILE: series.dfy ===
/** Arithmetic over daily series, written to match the JavaScript array
    operations the edge functions use: `reduce((a, b) => a + b, 0)`,
    `slice(-k)`, `slice(0, -k)` and `xs[k] || 0`. */
module Series {

  /** Left-to-right sum, as `reduce((a, b) => a + b, 0)`. */
  function Sum(xs: seq<real>): (r: real)
    ensures NonNegative(xs) ==> r >= 0.0
  {
    if |xs| == 0 then 0.0 else Sum(xs[..|xs| - 1]) + xs[|xs| - 1]
  }

  /** Arithmetic mean of a non-empty sequence. */
  function Mean(xs: seq<real>): real
    requires |xs| > 0
  {
    Sum(xs) / |xs| as real
  }

  function Min(a: int, b: int): int { if a <= b then a else b }

  /** `Math.max(0, x)`. */
  function Max0(x: real): (r: real)
    ensures r >= 0.0 && r >= x
    ensures r == x || r == 0.0
  {
    if x > 0.0 then x else 0.0
  }

  /** `Math.min(x, y)` on reals. */
  function MinReal(x: real, y: real): (r: real)
    ensures r <= x && r <= y && (r == x || r == y)
  {
    if x <= y then x else y
  }

  ghost predicate NonNegative(xs: seq<real>)
  {
    forall j :: 0 <= j < |xs| ==> xs[j] >= 0.0
  }

  ghost predicate Constant(xs: seq<real>, c: real)
  {
    forall j :: 0 <= j < |xs| ==> xs[j] == c
  }

  /** `xs.slice(-k)` for a positive `k`: the last `k` elements, or all of
      them when there are fewer. */
  function TakeLast(xs: seq<real>, k: nat): (r: seq<real>)
    requires k > 0
    ensures |r| == Min(k, |xs|)
    ensures r == xs[|xs| - |r|..]
  {
    if |xs| <= k then xs else xs[|xs| - k..]
  }

  /** `xs.slice(0, -k)` for a positive `k`: everything but the last `k`
      elements, or nothing when there are at most `k`. */
  function DropLast(xs: seq<real>, k: nat): (r: seq<real>)
    requires k > 0
    ensures DropLast(xs, k) + TakeLast(xs, k) == xs
  {
    if |xs| <= k then [] else xs[..|xs| - k]
  }

  /** `xs[k] || 0` on an array of finite numbers: the element when the index
      is in range (a stored 0 reads as 0 either way), otherwise 0. */
  function At(xs: seq<real>, k: int): (r: real)
    ensures 0 <= k < |xs| ==> r == xs[k]
    ensures r != 0.0 ==> 0 <= k < |xs| && r == xs[k]
  {
    if 0 <= k < |xs| then xs[k] else 0.0
  }

  /** A sum of `n` copies of `c` is `n * c`. */
  lemma {:induction false} SumConstant(xs: seq<real>, c: real)
    requires Constant(xs, c)
    ensures Sum(xs) == |xs| as real * c
  {
    if |xs| > 0 {
      SumConstant(xs[..|xs| - 1], c);
    }
  }

  lemma MeanOfConstant(xs: seq<real>, c: real)
    requires |xs| > 0 && Constant(xs, c)
    ensures Mean(xs) == c
  {
    SumConstant(xs, c);
    ScaledQuotient(Sum(xs), c, |xs| as real);
  }

  /** A suffix of a non-negative series is non-negative. */
  lemma TakeLastNonNegative(xs: seq<real>, k: nat)
    requires k > 0 && NonNegative(xs)
    ensures NonNegative(TakeLast(xs, k))
  {
    if |xs| > k {
      var r := xs[|xs| - k..];
      forall j | 0 <= j < |r|
        ensures r[j] >= 0.0
      {
        assert r[j] == xs[|xs| - k + j];
      }
    }
  }

  /** Dividing by a positive `n` and multiplying back gives `x`. */
  lemma QuotientTimes(x: real, n: real)
    requires n > 0.0
    ensures (x / n) * n == x
  {
  }

  lemma QuotientNonNegative(x: real, y: real)
    requires x >= 0.0 && y > 0.0
    ensures x / y >= 0.0
  {
  }

  lemma ScaledQuotient(x: real, c: real, n: real)
    requires n > 0.0 && x == n * c
    ensures x / n == c
  {
  }
}
